=== FILE: README.md ===
# Attr-Dict in Dafny

A model of the Attr-Dict library. The library provides dictionaries whose keys can also be read and written as attributes, and a two-level index built on top of them.

- **The attribute-dictionary family** (`attr_dict/attrdict.py`) has three variants, each a subclass of the one before:
  - `AttrDict` is an insertion-ordered `OrderedDict` with attribute access.
  - `LazyAttrDict` reads a missing key as `None` and ignores a deletion of a missing key.
  - `RestrictedAttrDict` refuses attribute-syntax assignment and deletion.
- **Coercion.** Every write path runs the recursive coercion rule `__coerce`:
  - An instance of the container's class (or of a subclass) is kept.
  - Any other dict is rebuilt as the container's class.
  - Lists, tuples and sets are rebuilt element by element.
  - Anything else is kept.
- **The index classes** (`attr_dict/index.py`): `AttrIndex`, `LazyIndex` and `RestrictedIndex` each own one dictionary of the matching variant. They add key-level and argument-level operations on the two-level structure.

The model has six modules:

- `Values` (`values.dfy`) defines the data:
  - the `Value` datatype: `None`, integers, strings, lists/tuples/sets, and dicts with a kind, an ordered key list and a value map;
  - the class chain as `Kind` and `IsA`;
  - the exceptions;
  - Python `==` on values (`PyEq`);
  - `Translate`, the `KeyError` → `AttributeError` wrapper.
- `Coercion` (`coerce.dfy`): `__coerce` as a recursive function and its properties. These cover identity, idempotence, homogeneity of the result, and exactly when a RestrictedAttrDict cannot be built.
- `Mapping` (`mapping.dfy`): every dictionary operation as a function from a dict value to the new value or the exception it raises. It also gives an independent reference definition (`Merged`) of storing a sequence of pairs, with lemmas tying the operations to it.
- `AttrDicts` (`attrdict.dfy`): `class AttrDict` with a `variant`, a key sequence and a value map.
  - Each method changes those fields in place.
  - Each method is proved against a `Mapping` function: `New` against `Construct`, every other method but the constructor `Empty` against the function of the same name.
  - Each method keeps the invariant `Valid()`: the keys are listed once each, and the values are homogeneous for the class.
  - The constructor and `update` keep the source's loops with loop invariants.
- `IndexOps` (`index_ops.dfy`): the index operations as functions on the index dict's value, and their properties.
- `Indexes` (`index.dfy`): `class Index`, holding one `AttrDict`. `SetKey` and `DelKey` are proved against `Mapping.SetItem` and `Mapping.DelItem`, the other methods against `IndexOps`; `set_arg` keeps its loop over the keyword arguments.

Two consequences of the code worth stating:

- `copy()` is `self.__class__(super().copy())` (`attr_dict/attrdict.py:66`): it rebuilds the dictionary through the class's constructor, so coercion and the `setattr` pass run again. Copying a non-empty `RestrictedAttrDict` therefore raises `AttributeError("can't set attribute")`.
- `setdefault` coerces the default before looking at the key (`attr_dict/attrdict.py:69`). A default that cannot be coerced raises even when the key is present.

## Model

| member | source | states |
|---|---|---|
| Values.PyEq | attr_dict/index.py:55 | defines Python `==` on the modelled values (OrderedDict family compared in order); `Values.PyEqReflexive`, `Coercion.CoerceEquals` and `IndexOps.SetArgThenCheckArg` state its properties |
| Mapping.SetItem | attr_dict/attrdict.py:61-63 | defines `d[key] = value` as storing the coerced value; stated by `Mapping.SetThenGet`, `Mapping.SetItemWellFormed`, `Mapping.RestrictedWrites` |
| Mapping.GetItem | attr_dict/attrdict.py:95-98 | defines `d[key]`: the stored value, `None` on a lenient dict, `KeyError` otherwise; stated by `Mapping.SetThenGet`, `Mapping.StrictMissing`, `Mapping.LenientMissing` |
| Mapping.DelItem | attr_dict/attrdict.py:100-102 | defines `del d[key]`; stated by `Mapping.DelThenGet`, `Mapping.LenientMissing`, `Mapping.RemoveWellFormed` |
| Mapping.Get | attr_dict/index.py:43 | defines the inherited `dict.get(key)` that `get_arg` calls (it has no source line of its own); stated by `Mapping.GetIsLenientRead` |
| Mapping.Pop | tests/full_doctests.py:98-100 | defines the inherited `pop(key)`; stated by `Mapping.PopRemoves` |
| Mapping.GetAttr | attr_dict/attrdict.py:54-56 | defines `d.name`; stated by `Mapping.AttributeIsItem`, `Mapping.StrictMissing` |
| Mapping.SetAttr | attr_dict/attrdict.py:58-59 | defines `d.name = value`, with RestrictedAttrDict's override at attr_dict/attrdict.py:119-120; stated by `Mapping.AttributeIsItem`, `Mapping.RestrictedWrites`, `Mapping.SetAttrRestores` |
| Mapping.DelAttr | attr_dict/attrdict.py:50-52 | defines `del d.name`, with RestrictedAttrDict's override at attr_dict/attrdict.py:116-117; stated by `Mapping.AttributeIsItem`, `Mapping.RestrictedWrites` |
| Mapping.SetDefault | attr_dict/attrdict.py:68-70 | defines `setdefault`; stated by `Mapping.SetDefaultSpec`, `Mapping.SetDefaultWellFormed` |
| Mapping.Construct | attr_dict/attrdict.py:32-35 | defines `cls(pairs)`; stated by `Mapping.ConstructMerges`, `Mapping.ConstructFails`, `Mapping.ConstructWellFormed`, `Mapping.CoerceIsConstruct` |
| Mapping.Copy | attr_dict/attrdict.py:65-66 | defines `copy()`; stated by `Mapping.CopyKeepsItems` |
| Mapping.Update | attr_dict/attrdict.py:72-74 | defines `update`; stated by `Mapping.UpdateMerges` |
| Mapping.FromJson | attr_dict/attrdict.py:78-83 | defines `from_json` on a parsed value, with RestrictedAttrDict's override at attr_dict/attrdict.py:125-127; stated by `Mapping.FromJsonSpec` |
| Mapping.Merged | attr_dict/attrdict.py:72-74 | the reference definition of storing pairs into a dict; `Mapping.FillMerges`, `Mapping.ConstructMerges`, `Mapping.UpdateMerges` tie the operations to it |
| IndexOps.GetKey | attr_dict/index.py:24-28 | defines `get_key`; stated by `IndexOps.SetKeyThenGetKey`, `IndexOps.GetKeyMissing` |
| IndexOps.WithArg | attr_dict/index.py:38 | defines one `self._index[key][k] = v`; stated through `IndexOps.WithArgsFill`, `IndexOps.WithArgsNonDict`, `IndexOps.WriteBackKept` |
| IndexOps.SetArg | attr_dict/index.py:33-38 | defines `set_arg`; stated by `IndexOps.SetArgMerges`, `IndexOps.SetArgThenGetArg`, `IndexOps.SetArgThenCheckArg` |
| IndexOps.GetArg | attr_dict/index.py:40-45 | defines `get_arg`; stated by `IndexOps.SetArgThenGetArg`, `IndexOps.DelArgRemoves`, `IndexOps.CheckArgReflexive` |
| IndexOps.DelArg | attr_dict/index.py:47-52 | defines `del_arg`; stated by `IndexOps.DelArgRemoves` |
| IndexOps.CheckArg | attr_dict/index.py:54-58 | defines `check_arg` as `value == get_arg(key, arg)`; stated by `IndexOps.CheckArgReflexive`, `IndexOps.SetArgThenCheckArg` |
| Values.IsA | attr_dict/attrdict.py:38-43 | defines `isinstance(value, cls)` over the subclass chain `dict` ← `AttrDict` (:28) ← `LazyAttrDict` (:91) ← `RestrictedAttrDict` (:108); `Coercion.HomogeneousWeaken`, `Coercion.CoerceIdentity` and `Mapping.CoerceIsConstruct` state what coercion does on each side of the test |
| Values.Lenient | attr_dict/attrdict.py:95-102 | defines which classes inherit LazyAttrDict's `__getitem__`/`__delitem__` (LazyAttrDict and RestrictedAttrDict); `Mapping.LenientMissing`, `Mapping.StrictMissing` and `Mapping.DelItem`'s contract state the two behaviours |
| Values.Truthy | attr_dict/index.py:25 | defines Python truthiness for `if key:`; `IndexOps.SetKeyThenGetKey` and `Indexes.Index.GetKey` state that a non-empty key is read and `None` or `""` give the whole index |
| Values.Message | attr_dict/attrdict.py:23 | defines `str(error)`, the text `translate_error` carries over; `Values.Translate` and `Mapping.StrictMissing` state that it is kept |
| Mapping.Stored | attr_dict/attrdict.py:62 | defines the coercion step of `__setitem__` (a builtin dict stores unchanged); `Mapping.SetThenGet`, `Mapping.StoredMapOfItems` and `IndexOps.SetKeyThenGetKey` state what is stored |
| Mapping.Store | attr_dict/attrdict.py:63 | defines `super().__setitem__`: a new key is appended, a present key keeps its place; `Mapping.SetThenGet`, `Mapping.MergedKeysStep` and `IndexOps.StoreTwice` state its properties |
| Mapping.Remove | attr_dict/attrdict.py:102 | defines `super().__delitem__`; `Mapping.DelThenGet`, `Mapping.RemoveWellFormed`, `Mapping.PopRemoves` and `Mapping.WithoutAt` state its properties |
| Mapping.Items | attr_dict/attrdict.py:34 | defines `self.items()` in insertion order; `Mapping.NamesOfItems`, `Mapping.ItemsAreItems` and `Mapping.ItemsWellFormed` state its properties |
| IndexOps.Nested | attr_dict/index.py:35-38 | defines the nested dict that `set_arg` (:38), `get_arg` (:43) and `del_arg` (:50) reach through `self._index[key]`, with set_key's default for a missing key; `IndexOps.SetArgIsWithArgs`, `IndexOps.MergedArgsStored` and `IndexOps.GetArgNested` state its use |
| Values.Translate | attr_dict/attrdict.py:16-25 | a `KeyError` comes out as an `AttributeError` with the same message; success and every other exception pass through unchanged |
| Values.PyEqReflexive | attr_dict/index.py:54-58 | Python `==` as modelled is reflexive on every value, which `check_arg` relies on |
| Coercion.Coerce | attr_dict/attrdict.py:37-48 | coercion never fails into AttrDict or LazyAttrDict; it fails only into RestrictedAttrDict, with `AttributeError("can't set attribute")`; a successful result conforms to the container's class |
| Coercion.CoerceEach | attr_dict/attrdict.py:45-47 | the elements of a list, tuple or set are coerced in order, same length; the whole fails exactly when one element fails |
| Coercion.CoerceIdentity | attr_dict/attrdict.py:37-48 | coercion returns its argument unchanged if and only if it already conforms (an instance of the class or a subclass, a scalar, or a collection of such) |
| Coercion.CoerceIdempotent | attr_dict/attrdict.py:37-48 | coercing an already coerced value changes nothing |
| Coercion.HomogeneousWeaken | attr_dict/attrdict.py:38-42 | a value whose dicts are all instances of a subclass has all its dicts instances of the superclass |
| Coercion.HomogeneousPlain | attr_dict/attrdict.py:28 | every dict of the family is a `dict` |
| Coercion.HomogeneousConforms | attr_dict/attrdict.py:38-42 | a value homogeneous for a class conforms to it, so coercion keeps it |
| Coercion.CoerceHomogeneous | attr_dict/attrdict.py:37-48 | after coercion every dict reachable through dicts, lists, tuples and sets is an instance of the container's class or a subclass, and the value is well formed |
| Coercion.CoerceRestrictedFails | attr_dict/attrdict.py:44 | coercion into RestrictedAttrDict fails exactly when it must rebuild a non-empty dict that is not already a RestrictedAttrDict |
| Coercion.CoerceCollection | attr_dict/attrdict.py:45-47 | a list, tuple or set comes back as the same type and length, each element coerced in place |
| Coercion.HashableConforms | attr_dict/attrdict.py:45-48 | a hashable value (scalar or tuple of such) holds no dict, so coercion keeps it |
| Coercion.CoerceEquals | attr_dict/attrdict.py:37-48 | the coerced value is `==` to the original: a rebuilt dict has the same keys, order and equal values; collections keep equal elements |
| Coercion.CoerceForeignDict | attr_dict/attrdict.py:43-44 | a foreign dict comes back as the container's class with the same keys in the same order and every value coerced |
| Mapping.Without | attr_dict/attrdict.py:100-102 | deleting a key from the key order removes exactly that key and keeps the others distinct |
| Mapping.Fill | attr_dict/attrdict.py:32-33 | storing pairs one by one keeps the dict's class and a consistent key order |
| Mapping.FillMerges | attr_dict/attrdict.py:32-33 | storing storable pairs through `__setitem__` gives the reference merge: old keys keep their place, new keys are appended in first-occurrence order, and the last value for a key wins |
| Mapping.FillFails | attr_dict/attrdict.py:61-63 | storing pairs fails exactly when some value cannot be stored, only on RestrictedAttrDict, with `can't set attribute` |
| Mapping.NamesOfItems | attr_dict/attrdict.py:34 | the names of a dict's items are its keys in order |
| Mapping.ItemsAreItems | attr_dict/attrdict.py:34 | the i-th item is the i-th key with its value |
| Mapping.ItemsWellFormed | attr_dict/attrdict.py:34 | the items of a well-formed dict carry well-formed values |
| Mapping.StoredMapOfItems | attr_dict/attrdict.py:65-66 | storing a dict's items stores exactly its keys, each with the value `__setitem__` gives it |
| Mapping.NewKeysFresh | attr_dict/attrdict.py:32-33 | distinct unseen names are appended as they are |
| Mapping.StoredKept | attr_dict/attrdict.py:61-63 | a value homogeneous for the class is stored unchanged |
| Mapping.ItemsStoredUnchanged | attr_dict/attrdict.py:72-74 | the items of a well-formed dict of the same class are stored unchanged |
| Mapping.FillWithItems | attr_dict/attrdict.py:72-74 | storing a same-class dict's items overwrites existing keys in place and appends new keys in that dict's order |
| Mapping.FillConcat | attr_dict/attrdict.py:32-33 | storing `ps + qs` is storing `ps` and then `qs`; a failure in `ps` stops everything |
| Mapping.FillSnoc | attr_dict/attrdict.py:32-33 | storing one more pair after a prefix is one `__setitem__` |
| Mapping.FillPrefixFails | attr_dict/attrdict.py:32-33 | once a prefix fails, the whole sequence fails with the same error |
| Mapping.SetAttrRestores | attr_dict/attrdict.py:34-35 | re-storing an item through `setattr` leaves AttrDict and LazyAttrDict unchanged and raises on RestrictedAttrDict |
| Mapping.SetItemWellFormed | attr_dict/attrdict.py:61-63 | item assignment keeps the dict well formed and homogeneous |
| Mapping.RemoveWellFormed | attr_dict/attrdict.py:100-102 | deleting a key keeps the dict well formed |
| Mapping.FillWellFormed | attr_dict/attrdict.py:32-33 | storing well-formed pairs keeps the dict well formed |
| Mapping.ConstructMerges | attr_dict/attrdict.py:32-35 | AttrDict and LazyAttrDict built from pairs always succeed, with the keys in first-occurrence order and the last stored value per key |
| Mapping.ConstructFails | attr_dict/attrdict.py:32-35 | RestrictedAttrDict can be built only from no pairs; any failure is `can't set attribute` |
| Mapping.ConstructWellFormed | attr_dict/attrdict.py:32-35 | a dict built from well-formed pairs is well formed and of the requested class |
| Mapping.CoerceIsConstruct | attr_dict/attrdict.py:43-44 | coercing a foreign dict gives exactly what `cls(value)` gives, including the RestrictedAttrDict failure |
| Mapping.NewKeysOfItems | attr_dict/attrdict.py:34 | the keys a dict's items bring into an empty dict are its keys, in order |
| Mapping.StoredMapOfForeign | attr_dict/attrdict.py:43-44 | a foreign dict's items stored into AttrDict or LazyAttrDict are the values coercion gives |
| Mapping.RebuildIsConstruct | attr_dict/attrdict.py:43-44 | AttrDict or LazyAttrDict built from a foreign dict's items equals the coerced dict |
| Mapping.RefillItems | attr_dict/attrdict.py:65-66 | storing a well-formed dict's items into an empty dict of its class gives the dict back |
| Mapping.CopyKeepsItems | attr_dict/attrdict.py:65-66 | `copy()` gives the same class, keys, order and values; a non-empty RestrictedAttrDict raises `can't set attribute` |
| Mapping.UpdateMerges | attr_dict/attrdict.py:72-74 | `update` fails with the construction's error, or overwrites existing keys in place, appends new keys in order with coerced values, leaves other keys untouched and keeps the dict well formed |
| Mapping.SetThenGet | attr_dict/attrdict.py:61-63 | item assignment fails exactly when the value cannot be stored; afterwards the key reads back as the coerced value, and other keys are unchanged |
| Mapping.DelThenGet | attr_dict/attrdict.py:100-102 | `del d[key]` raises `KeyError(key)` exactly when the key is missing from a strict dict; afterwards the key is gone and the others keep their values and order |
| Mapping.AttributeIsItem | attr_dict/attrdict.py:50-59 | attribute read, write and delete are item read, write and delete on the same key, with a `KeyError` re-raised as `AttributeError` of the same message |
| Mapping.StrictMissing | attr_dict/attrdict.py:50-56 | on AttrDict a missing key raises `KeyError` through item syntax and `AttributeError` with the same message through attribute syntax |
| Mapping.LenientMissing | attr_dict/attrdict.py:95-102 | on LazyAttrDict and RestrictedAttrDict a missing key reads as `None` by item and attribute, and deleting it leaves the dict unchanged |
| Mapping.RestrictedWrites | attr_dict/attrdict.py:116-120 | on RestrictedAttrDict attribute assignment and deletion always raise; item assignment fails only for a value that needs a non-empty rebuild; `{}` is stored as an empty RestrictedAttrDict; item deletion and `pop` work |
| Mapping.GetIsLenientRead | attr_dict/attrdict.py:95-98 | `get(key)` gives the stored value or `None` on every class |
| Mapping.PopRemoves | tests/full_doctests.py:98-100 | `pop(key)` returns the stored value and removes the key; the key order is the old one with that key taken out (see `Mapping.WithoutAt`), the other keys keep their values; a missing key raises `KeyError(key)` |
| Mapping.WithoutAt | attr_dict/attrdict.py:100-102 | removing the key at position `i` leaves the keys before and after it, each in their old order |
| Mapping.SetDefaultSpec | attr_dict/attrdict.py:68-70 | `setdefault` fails exactly when the default cannot be coerced; a present key returns its value and changes nothing; an absent key is appended with the coerced default, which is returned |
| Mapping.SetDefaultWellFormed | attr_dict/attrdict.py:68-70 | `setdefault` keeps the dict well formed |
| Mapping.FromJsonSpec | attr_dict/attrdict.py:78-83 | RestrictedAttrDict `from_json` always raises `AttributeError`; a parsed value that is not an object raises `TypeError("Not a dictionary")`; an object is built as the constructor would, which equals its coercion |
| AttrDicts.AttrDict.Empty | attr_dict/attrdict.py:32-35 | `cls()` is an empty, valid dict of the variant |
| AttrDicts.AttrDict.New | attr_dict/attrdict.py:32-35 | the two loops of `__init__` (store each pair, then `setattr` each item) succeed exactly when `Mapping.Construct` does and leave its value; on failure the same exception |
| AttrDicts.AttrDict.SetItem | attr_dict/attrdict.py:61-63 | `d[key] = value` changes the dict as `Mapping.SetItem` says, or raises and changes nothing, and keeps `Valid()` |
| AttrDicts.AttrDict.GetItem | attr_dict/attrdict.py:95-98 | `d[key]` is `Mapping.GetItem`; it raises exactly when the key is missing from an AttrDict |
| AttrDicts.AttrDict.DelItem | attr_dict/attrdict.py:100-102 | `del d[key]` changes the dict as `Mapping.DelItem` says and keeps `Valid()` |
| AttrDicts.AttrDict.GetAttr | attr_dict/attrdict.py:54-56 | `d.name` is `Mapping.GetAttr`; any failure is `AttributeError(name)` |
| AttrDicts.AttrDict.SetAttr | attr_dict/attrdict.py:58-59 | `d.name = value` changes the dict as `Mapping.SetAttr` says and keeps `Valid()` |
| AttrDicts.AttrDict.DelAttr | attr_dict/attrdict.py:50-52 | `del d.name` changes the dict as `Mapping.DelAttr` says and keeps `Valid()` |
| AttrDicts.AttrDict.Get | attr_dict/index.py:43 | `get(key)` is the stored value or `None` |
| AttrDicts.AttrDict.Pop | tests/full_doctests.py:98-100 | `pop(key)` returns and removes as `Mapping.Pop` says, or raises and changes nothing |
| AttrDicts.AttrDict.SetDefault | attr_dict/attrdict.py:68-70 | `setdefault` returns and stores as `Mapping.SetDefault` says, or raises and changes nothing |
| AttrDicts.AttrDict.Update | attr_dict/attrdict.py:72-74 | `update` builds a dict of the same class, then stores its items one by one in a loop; the result is `Mapping.Update` |
| AttrDicts.AttrDict.Copy | attr_dict/attrdict.py:65-66 | `copy()` is a fresh valid dict equal to `Mapping.Copy`, or its exception |
| AttrDicts.AttrDict.FromJson | attr_dict/attrdict.py:78-83 | `from_json` on an already-parsed value is a fresh valid dict equal to `Mapping.FromJson`, or its exception |
| IndexOps.WithArgs | attr_dict/index.py:37-38 | the loop over the keyword arguments keeps the index's class and the key; success returns `None` |
| IndexOps.SetArgStart | attr_dict/index.py:35-36 | a missing key is first set to an empty dict of the index's class |
| IndexOps.WithArgsStep | attr_dict/index.py:37-38 | one turn of the loop is one nested assignment |
| IndexOps.SetKeyDefault | attr_dict/index.py:21-22 | `set_key(key)` with the default `{}` stores a new empty dict of the index's class, on every index class |
| IndexOps.SetKeyThenGetKey | attr_dict/index.py:21-28 | after `set_key(key, value)` a non-empty key reads back as the coerced value; `None` and `''` give the whole index |
| IndexOps.GetKeyMissing | attr_dict/index.py:24-28 | `get_key` of a missing key raises `KeyError` on AttrIndex and gives `None` on LazyIndex and RestrictedIndex |
| IndexOps.WithArgsFill | attr_dict/index.py:37-38 | the loop stores the arguments into the nested dict through its `__setitem__` and writes it back in place; a failure escapes with the same error |
| IndexOps.SetArgIsWithArgs | attr_dict/index.py:33-38 | `set_arg` works on the index with the key's nested value, or `{}` for a missing key |
| IndexOps.WithArgsMerges | attr_dict/index.py:37-38 | on a nested dict the arguments are merged in, or refused with `can't set attribute` by a RestrictedAttrDict |
| IndexOps.WithArgsNonDict | attr_dict/index.py:37-38 | a nested value that is not a dict raises `TypeError` at the first argument and changes nothing |
| IndexOps.StoreTwice | attr_dict/index.py:38 | writing a key twice keeps the last value and the key's place |
| IndexOps.SetArgMerges | attr_dict/index.py:33-38 | `set_arg` merges the arguments into the nested dict, or raises `TypeError` on a non-dict, or `can't set attribute` when the nested dict is a RestrictedAttrDict |
| IndexOps.StoredMapNames | attr_dict/index.py:37-38 | the names the merge brings in are exactly the argument names |
| IndexOps.DistinctNamesRest | attr_dict/index.py:37 | keyword names stay distinct after the first |
| IndexOps.StoredMapAt | attr_dict/index.py:37-38 | with distinct names, each argument is stored with its own coerced value |
| IndexOps.MergedGetArg | attr_dict/index.py:40-45 | reading the merged nested dict at an argument gives its stored value |
| IndexOps.MergedGetOther | attr_dict/index.py:40-45 | reading the merged nested dict at any other name reads as before |
| IndexOps.MergedArgsStored | attr_dict/index.py:33-45 | the merged index reads as `ArgsStored` says |
| IndexOps.SetArgThenGetArg | attr_dict/index.py:33-45 | after a successful `set_arg`, `get_arg` gives each argument's coerced value; other arguments and other keys read as before |
| IndexOps.CheckArgReflexive | attr_dict/index.py:54-58 | `check_arg` holds of what `get_arg` returns, and of `None` when the key or argument is absent |
| IndexOps.SetArgThenCheckArg | attr_dict/index.py:33-58 | after a successful `set_arg(key, name=value)`, for any value (dicts and lists included), `check_arg(key, name, value)` holds |
| IndexOps.DelArgRemoves | attr_dict/index.py:47-52 | `del_arg` raises `KeyError(arg)` exactly when the nested value is a strict dict without `arg`; an absent key or a nested value that is not a dict leaves the index unchanged; otherwise the nested dict becomes the old one with `arg` taken out of its order and its map, and other arguments, other keys and the index's key order are unchanged |
| IndexOps.DelArgNested | attr_dict/index.py:48-50 | after a successful `del self._index[key][arg]` on a nested dict, the entry under `key` is that dict with `arg` removed from its key order (`Without`) and from its values |
| IndexOps.WriteBackKept | attr_dict/index.py:38 | writing a changed nested dict back through the index's `__setitem__` stores it as it is, like the in-place change |
| IndexOps.NestedSetItemHomogeneous | attr_dict/index.py:38 | item assignment in a nested dict keeps it homogeneous for the index's class |
| IndexOps.NestedDelItemHomogeneous | attr_dict/index.py:50 | item deletion in a nested dict keeps it homogeneous for the index's class |
| IndexOps.LazyIndexSetExample | tests/full_doctests.py:112-120 | `set_arg('A', a=1, b=2, c=3)` then `set_key('B')` on a LazyIndex give `{'A': {'a': 1, 'b': 2, 'c': 3}, 'B': {}}` |
| IndexOps.LazyIndexDelExample | tests/full_doctests.py:122-133 | `get_arg('A', 'b')` is 2; `del_arg('A', 'c')` leaves `{'a': 1, 'b': 2}`; `check_arg('A', 'b', 2)` holds |
| Indexes.Index.AttrIndex | attr_dict/index.py:14-15 | a new AttrIndex owns a fresh empty AttrDict |
| Indexes.Index.LazyIndex | attr_dict/index.py:61-64 | a new LazyIndex owns a fresh empty LazyAttrDict |
| Indexes.Index.RestrictedIndex | attr_dict/index.py:67-70 | a new RestrictedIndex owns a fresh empty RestrictedAttrDict |
| Indexes.Index.SetKey | attr_dict/index.py:21-22 | `set_key` is item assignment on the index dict |
| Indexes.Index.GetKey | attr_dict/index.py:24-28 | `get_key` is `IndexOps.GetKey`; a falsy key gives the whole index |
| Indexes.Index.DelKey | attr_dict/index.py:30-31 | `del_key` is item deletion on the index dict |
| Indexes.Index.AssignArg | attr_dict/index.py:38 | `self._index[key][k] = v` changes the index as `IndexOps.WithArg` says, or raises and changes nothing |
| Indexes.Index.SetArg | attr_dict/index.py:33-38 | `set_arg`, with its loop, leaves the index state and outcome `IndexOps.SetArg` gives, including the changes made before a failure |
| Indexes.Index.GetArg | attr_dict/index.py:40-45 | `get_arg` is `IndexOps.GetArg` and gives `None` for a missing key |
| Indexes.Index.DelArg | attr_dict/index.py:47-52 | `del_arg` changes the index as `IndexOps.DelArg` says, or raises and changes nothing |
| Indexes.Index.CheckArg | attr_dict/index.py:54-58 | `check_arg` is `value == get_arg(key, arg)` |

## Left out

- `to_json` and JSON parsing: `from_json` takes the already-parsed value as a parameter. Number, string and text formatting are not modelled.
- `__repr__` of LazyAttrDict and RestrictedAttrDict: these are presentation only.
- Python attribute lookup: attribute syntax is modelled as forwarding to the key operations. Keys named like methods (`keys`, `copy`, ...) are not shadowed.
- Non-string keys: keys are strings. A key argument of `get_key` is `None` or a string; other falsy values such as `0` are not modelled.
- Object identity and aliasing: values are trees. The in-place change of a nested dict (`self._index[key][k] = v`, `del self._index[key][arg]`) is modelled as writing the changed nested dict back into the index. Two keys never share one nested object, and cyclic structures cannot be built.
- `pop` with a default argument and the other inherited `OrderedDict` methods (`popitem`, `move_to_end`, `clear`, `fromkeys`, `__ior__`).
- `cls(*args, **kwargs)` and `update(*args, **kwargs)`: positional and keyword arguments are given together as one sequence of pairs.
- Exception messages: exact `TypeError` texts other than the library's own are not modelled. The `KeyError` message is the key text rather than its `repr`.
- Plain `collections.OrderedDict` values: a value dict is either a builtin `dict` or one of the three classes. Comparing a plain OrderedDict with a class instance (order-sensitive in Python) is not modelled.
- `set_arg(key, **kwargs)` with a keyword named `key` or `self`: Python raises `TypeError` at the call; `IndexOps.SetArg` stores it like any other argument.
- Values whose family dicts hold dicts of another class: the writing methods (`AttrDict.SetItem`, `SetAttr`, `SetDefault`, `Update`, `New`, and `Index.SetKey`, `AssignArg`, `SetArg`) require `WellFormed` values, in which every dict inside a family dict is already of its class. Python stores such a value unchanged because the `isinstance` test keeps it (attr_dict/attrdict.py:38-42); the model does not, since the class invariant `Valid()` would not hold for it.
- Python values: floats and booleans are not modelled, nor `1 == True`. Set elements are taken to be hashable (`Values.SetsHashable`) only where `Coercion.CoerceEquals` needs it; the `Value` type itself admits unhashable set elements.
- Indexes.Index.CheckArg: `PyEq` models `==` on the modelled values only (sets compare their elements as sets of values).
- The index's `index` property is the `index` field, readable and never reassigned.
- Packaging (`setup.py`, `attr_dict/__init__.py`) and the doctest runner.

=== FILE: attrdict.dfy ===
/** The three dictionary classes as one class whose `variant` says which of
    `AttrDict`, `LazyAttrDict` and `RestrictedAttrDict` an instance is. The
    ordered dict is held as its key order and its key-value map; every
    method is proved against the function of the same name in `Mapping`. */
module AttrDicts {
  import opened Values
  import Coercion
  import Mapping

  /** The effect of a method that returns `None` or raises, given what the
      specification function computes: on success the method returns `None`
      and the dict becomes the computed one; on failure the exception
      escapes and the dict is unchanged. */
  ghost predicate Applied(spec: Result<Value>, before: Value, r: Result<Value>, after: Value) {
    if spec.Ok? then r == Ok(None) && after == spec.value
    else r == Err(spec.error) && after == before
  }

  class AttrDict {
    const variant: Variant
    var keys: seq<string>
    var vals: map<string, Value>

    /** The dict as a value. */
    function Abs(): Value
      reads this
    {
      Dict(variant, keys, vals)
    }

    /** The key order lists each key once, and every stored value holds only
        dicts of this class or a subclass. */
    ghost predicate Valid()
      reads this
    {
      WellFormed(Abs())
    }

    /** `cls()`: an empty dict. */
    constructor Empty(variant: Variant)
      ensures Valid() && Abs() == Dict(variant, [], map[])
    {
      this.variant := variant;
      keys := [];
      vals := map[];
    }

    /** `cls(*args, **kwargs)`, the arguments given as one sequence of
        pairs: each pair is stored through `__setitem__`, then every item is
        re-stored through `setattr`. */
    static method New(variant: Variant, pairs: seq<(string, Value)>) returns (r: Result<AttrDict>)
      requires forall i :: 0 <= i < |pairs| ==> WellFormed(pairs[i].1)
      ensures r.Ok? <==> Mapping.Construct(variant, pairs).Ok?
      ensures r.Ok? ==>
        && fresh(r.value) && r.value.Valid() && r.value.variant == variant
        && r.value.Abs() == Mapping.Construct(variant, pairs).value
      ensures r.Err? ==> r.error == Mapping.Construct(variant, pairs).error
    {
      ghost var empty := Dict(variant, [], map[]);
      var d := new AttrDict.Empty(variant);
      var i := 0;
      while i < |pairs|
        invariant 0 <= i <= |pairs|
        invariant d.Valid() && d.variant == variant
        invariant Mapping.Fill(empty, pairs[..i]) == Ok(d.Abs())
      {
        Mapping.FillSnoc(empty, pairs, i);
        var res := d.SetItem(pairs[i].0, pairs[i].1);
        if res.Err? {
          Mapping.FillPrefixFails(empty, pairs, i + 1);
          return Err(res.error);
        }
        i := i + 1;
      }
      assert pairs[..i] == pairs;
      ghost var filled := d.Abs();
      var j := 0;
      while j < |d.keys|
        invariant 0 <= j <= |d.keys|
        invariant d.Valid() && d.Abs() == filled
        invariant variant == Restricted ==> j == 0
      {
        var key := d.keys[j];
        Mapping.SetAttrRestores(d.Abs(), key);
        var res := d.SetAttr(key, d.vals[key]);
        if res.Err? {
          return Err(res.error);
        }
        j := j + 1;
      }
      r := Ok(d);
    }

    /** `d[key] = value`. */
    method SetItem(key: string, value: Value) returns (r: Result<Value>)
      requires Valid() && WellFormed(value)
      modifies this
      ensures Valid()
      ensures Applied(Mapping.SetItem(old(Abs()), key, value), old(Abs()), r, Abs())
    {
      var x := Coercion.Coerce(variant, value);
      if x.Err? {
        return Err(x.error);
      }
      Mapping.SetItemWellFormed(Abs(), key, value);
      if key !in vals {
        keys := keys + [key];
      }
      vals := vals[key := x.value];
      r := Ok(None);
    }

    /** `d[key]`. */
    method GetItem(key: string) returns (r: Result<Value>)
      ensures r == Mapping.GetItem(Abs(), key)
      ensures r.Err? <==> key !in vals && variant == Attr
    {
      if key in vals {
        r := Ok(vals[key]);
      } else if Lenient(variant) {
        r := Ok(None);
      } else {
        r := Err(KeyError(key));
      }
    }

    /** `del d[key]`. */
    method DelItem(key: string) returns (r: Result<Value>)
      requires Valid()
      modifies this
      ensures Valid()
      ensures Applied(Mapping.DelItem(old(Abs()), key), old(Abs()), r, Abs())
    {
      if key in vals {
        Mapping.RemoveWellFormed(Abs(), key);
        keys := Mapping.Without(keys, key);
        vals := vals - {key};
        r := Ok(None);
      } else if Lenient(variant) {
        r := Ok(None);
      } else {
        r := Err(KeyError(key));
      }
    }

    /** `d.name`: item read under `translate_error(KeyError, AttributeError)`. */
    method GetAttr(name: string) returns (r: Result<Value>)
      ensures r == Mapping.GetAttr(Abs(), name)
      ensures r.Err? ==> r.error == AttributeError(name)
    {
      r := GetItem(name);
      r := Translate(r);
    }

    /** `d.name = value`. */
    method SetAttr(name: string, value: Value) returns (r: Result<Value>)
      requires Valid() && WellFormed(value)
      modifies this
      ensures Valid()
      ensures Applied(Mapping.SetAttr(old(Abs()), name, value), old(Abs()), r, Abs())
    {
      if variant == Restricted {
        return Err(AttributeError(CantSet));
      }
      r := SetItem(name, value);
    }

    /** `del d.name`. */
    method DelAttr(name: string) returns (r: Result<Value>)
      requires Valid()
      modifies this
      ensures Valid()
      ensures Applied(Mapping.DelAttr(old(Abs()), name), old(Abs()), r, Abs())
    {
      if variant == Restricted {
        return Err(AttributeError(CantDelete));
      }
      r := DelItem(name);
      r := Translate(r);
    }

    /** `d.get(key)`. */
    method Get(key: string) returns (x: Value)
      ensures x == Mapping.Get(Abs(), key)
      ensures key in vals ==> x == vals[key]
    {
      x := if key in vals then vals[key] else None;
    }

    /** `d.pop(key)`. */
    method Pop(key: string) returns (r: Result<Value>)
      requires Valid()
      modifies this
      ensures Valid()
      ensures var spec := Mapping.Pop(old(Abs()), key);
        if spec.Ok? then r == Ok(spec.value.0) && Abs() == spec.value.1
        else r == Err(spec.error) && Abs() == old(Abs())
    {
      if key !in vals {
        return Err(KeyError(key));
      }
      var x := vals[key];
      Mapping.RemoveWellFormed(Abs(), key);
      keys := Mapping.Without(keys, key);
      vals := vals - {key};
      r := Ok(x);
    }

    /** `d.setdefault(key, default)`; Python's optional `default=None` is
        passed here as `Value.None`. */
    method SetDefault(key: string, default: Value) returns (r: Result<Value>)
      requires Valid() && WellFormed(default)
      modifies this
      ensures Valid()
      ensures var spec := Mapping.SetDefault(old(Abs()), key, default);
        if spec.Ok? then r == Ok(spec.value.0) && Abs() == spec.value.1
        else r == Err(spec.error) && Abs() == old(Abs())
    {
      var x := Coercion.Coerce(variant, default);
      if x.Err? {
        return Err(x.error);
      }
      if key in vals {
        return Ok(vals[key]);
      }
      Coercion.CoerceHomogeneous(variant, default);
      Coercion.CoerceIdempotent(variant, default);
      var res := SetItem(key, x.value);
      r := Ok(x.value);
    }

    /** `d.update(*args, **kwargs)`, the arguments given as one sequence of
        pairs: they are built into a dict of this class, whose items are
        then stored one by one through `__setitem__`. */
    method Update(pairs: seq<(string, Value)>) returns (r: Result<Value>)
      requires Valid()
      requires forall i :: 0 <= i < |pairs| ==> WellFormed(pairs[i].1)
      modifies this
      ensures Valid()
      ensures Applied(Mapping.Update(old(Abs()), pairs), old(Abs()), r, Abs())
    {
      var o := New(variant, pairs);
      if o.Err? {
        return Err(o.error);
      }
      var okeys, ovals := o.value.keys, o.value.vals;
      ghost var other := o.value.Abs();
      ghost var start := Abs();
      ghost var items := Mapping.Items(okeys, ovals);
      Mapping.UpdateMerges(start, pairs);
      var i := 0;
      while i < |okeys|
        invariant 0 <= i <= |okeys|
        invariant Valid()
        invariant Mapping.Fill(start, items[..i]) == Ok(Abs())
      {
        var key := okeys[i];
        Mapping.ItemsAreItems(okeys, ovals, i);
        Mapping.FillSnoc(start, items, i);
        if Mapping.Fill(start, items[..i + 1]).Err? {
          Mapping.FillPrefixFails(start, items, i + 1);
        }
        var res := SetItem(key, ovals[key]);
        i := i + 1;
      }
      assert items[..i] == items;
      r := Ok(None);
    }

    /** `d.copy()`. */
    method Copy() returns (r: Result<AttrDict>)
      requires Valid()
      ensures r.Ok? <==> Mapping.Copy(Abs()).Ok?
      ensures r.Ok? ==> fresh(r.value) && r.value.Valid() && r.value.Abs() == Mapping.Copy(Abs()).value
      ensures r.Err? ==> r.error == Mapping.Copy(Abs()).error
    {
      Mapping.ItemsWellFormed(Abs());
      r := New(variant, Mapping.Items(keys, vals));
    }

    /** `cls.from_json(string)`, the text already parsed into `parsed`. */
    static method FromJson(variant: Variant, parsed: Value) returns (r: Result<AttrDict>)
      requires WellFormed(parsed)
      ensures r.Ok? <==> Mapping.FromJson(variant, parsed).Ok?
      ensures r.Ok? ==> fresh(r.value) && r.value.Valid() && r.value.Abs() == Mapping.FromJson(variant, parsed).value
      ensures r.Err? ==> r.error == Mapping.FromJson(variant, parsed).error
    {
      if variant == Restricted {
        return Err(AttributeError(CantSet));
      }
      if !parsed.Dict? {
        return Err(TypeError(NotADictionary));
      }
      Mapping.ItemsWellFormed(parsed);
      r := New(variant, Mapping.Items(parsed.keys, parsed.vals));
    }
  }
}

=== FILE: coerce.dfy ===
/** `AttrDict.__coerce`: the rule every write path of the attribute
    dictionaries applies to the value being stored. */
module Coercion {
  import opened Values

  /** What coercion into a container of variant `t` leaves untouched: a
      dict that already is an instance of `t`, or a scalar, or a collection
      all of whose elements conform. Dicts that conform are not looked into. */
  predicate Conforms(t: Variant, v: Value)
    decreases v
  {
    match v
    case Dict(k, _, _) => IsA(k, t)
    case Coll(_, s) => forall i :: 0 <= i < |s| ==> Conforms(t, s[i])
    case _ => true
  }

  /** `self.__coerce(value)` in a container of variant `t`:
      - an instance of the container's class (or of a subclass) is kept;
      - any other dict is rebuilt as `t(value)`, with its values coerced in
        turn. Building a RestrictedAttrDict from a non-empty dict raises
        `AttributeError("can't set attribute")`, because `__init__` re-stores
        each item through `setattr`; an empty one builds fine;
      - a list, tuple or set is rebuilt as the same type, each element
        coerced, in order;
      - anything else is kept. */
  function Coerce(t: Variant, v: Value): (r: Result<Value>)
    ensures t != Restricted ==> r.Ok?
    ensures r.Err? ==> t == Restricted && r.error == AttributeError(CantSet)
    ensures r.Ok? ==> Conforms(t, r.value)
    decreases v, 1
  {
    match v
    case Dict(k, keys, vals) =>
      if IsA(k, t) then Ok(v)
      else if t == Restricted then
        if keys == [] then Ok(Dict(Restricted, [], map[])) else Err(AttributeError(CantSet))
      else Ok(Dict(t, keys, map key | key in vals :: Coerce(t, vals[key]).value))
    case Coll(c, s) =>
      (match CoerceEach(t, s)
       case Ok(es) => Ok(Coll(c, es))
       case Err(e) => Err(e))
    case _ => Ok(v)
  }

  /** `map(self.__coerce, value)` consumed in order: the first failure
      escapes; otherwise the elements are coerced one by one. */
  function CoerceEach(t: Variant, s: seq<Value>): (r: Result<seq<Value>>)
    ensures r.Ok? <==> forall i :: 0 <= i < |s| ==> Coerce(t, s[i]).Ok?
    ensures r.Err? ==> t == Restricted && r.error == AttributeError(CantSet)
    ensures r.Ok? ==> |r.value| == |s| && forall i :: 0 <= i < |s| ==> Coerce(t, s[i]) == Ok(r.value[i])
    decreases s, 0
  {
    if s == [] then Ok([])
    else
      match Coerce(t, s[0])
      case Err(e) => Err(e)
      case Ok(x) =>
        match CoerceEach(t, s[1..])
        case Err(e) => Err(e)
        case Ok(xs) => Ok([x] + xs)
  }

  /** Coercion returns its argument unchanged exactly when the argument
      already conforms to the container's variant. */
  lemma {:induction false} CoerceIdentity(t: Variant, v: Value)
    ensures Coerce(t, v) == Ok(v) <==> Conforms(t, v)
    decreases v
  {
    if Conforms(t, v) && v.Coll? {
      var s := v.elems;
      forall i | 0 <= i < |s| ensures Coerce(t, s[i]) == Ok(s[i]) {
        CoerceIdentity(t, s[i]);
      }
      var es := CoerceEach(t, s).value;
      assert es == s;
    }
  }

  /** Coercing twice gives what coercing once gives. */
  lemma CoerceIdempotent(t: Variant, v: Value)
    requires Coerce(t, v).Ok?
    ensures Coerce(t, Coerce(t, v).value) == Coerce(t, v)
  {
    CoerceIdentity(t, Coerce(t, v).value);
  }

  /** Every value reachable from a value homogeneous for a subclass is
      homogeneous for the superclass too. */
  lemma {:induction false} HomogeneousWeaken(k: Kind, t: Kind, v: Value)
    requires IsA(k, t) && Homogeneous(k, v)
    ensures Homogeneous(t, v)
    decreases v
  {
    match v
    case Dict(_, _, vals) =>
      forall key | key in vals ensures Homogeneous(t, vals[key]) {
        HomogeneousWeaken(k, t, vals[key]);
      }
    case Coll(_, s) =>
      forall i | 0 <= i < |s| ensures Homogeneous(t, s[i]) {
        HomogeneousWeaken(k, t, s[i]);
      }
    case _ =>
  }

  /** Every value is homogeneous for the builtin dict: all the family's
      classes are dict subclasses. */
  lemma {:induction false} HomogeneousPlain(v: Value)
    ensures Homogeneous(Plain, v)
    decreases v
  {
    match v
    case Dict(_, _, vals) =>
      forall key | key in vals ensures Homogeneous(Plain, vals[key]) {
        HomogeneousPlain(vals[key]);
      }
    case Coll(_, s) =>
      forall i | 0 <= i < |s| ensures Homogeneous(Plain, s[i]) {
        HomogeneousPlain(s[i]);
      }
    case _ =>
  }

  /** A value homogeneous for variant `t` conforms to it. */
  lemma {:induction false} HomogeneousConforms(t: Variant, v: Value)
    requires Homogeneous(t, v)
    ensures Conforms(t, v)
    decreases v
  {
    if v.Coll? {
      forall i | 0 <= i < |v.elems| ensures Conforms(t, v.elems[i]) {
        HomogeneousConforms(t, v.elems[i]);
      }
    }
  }

  /** Homogeneity: after coercion into variant `t`, every dict reachable in
      the stored value (through dicts, lists, tuples and sets) is an
      instance of `t` or of a subclass, and the stored value is well formed
      again. */
  lemma {:induction false} CoerceHomogeneous(t: Variant, v: Value)
    requires WellFormed(v)
    requires Coerce(t, v).Ok?
    ensures WellFormed(Coerce(t, v).value)
    ensures Homogeneous(t, Coerce(t, v).value)
    decreases v
  {
    var r := Coerce(t, v).value;
    match v
    case Dict(k, keys, vals) =>
      if IsA(k, t) {
        forall key | key in vals ensures Homogeneous(t, vals[key]) {
          HomogeneousWeaken(k, t, vals[key]);
        }
      } else if t != Restricted {
        forall key | key in vals
          ensures WellFormed(r.vals[key]) && Homogeneous(t, r.vals[key])
        {
          CoerceHomogeneous(t, vals[key]);
        }
      }
    case Coll(c, s) =>
      forall i | 0 <= i < |s|
        ensures WellFormed(r.elems[i]) && Homogeneous(t, r.elems[i])
      {
        CoerceHomogeneous(t, s[i]);
      }
    case _ =>
  }

  /** A dict that coercion into variant `t` would rebuild although it has
      items, reachable from `v` without passing through a dict. */
  predicate RebuildsNonEmpty(t: Variant, v: Value)
    decreases v
  {
    match v
    case Dict(k, keys, _) => !IsA(k, t) && keys != []
    case Coll(_, s) => exists i :: 0 <= i < |s| && RebuildsNonEmpty(t, s[i])
    case _ => false
  }

  /** Coercion into a RestrictedAttrDict fails exactly when it would have to
      build a RestrictedAttrDict with items. */
  lemma {:induction false} CoerceRestrictedFails(v: Value)
    ensures Coerce(Restricted, v).Err? <==> RebuildsNonEmpty(Restricted, v)
    decreases v
  {
    match v
    case Coll(c, s) =>
      forall i | 0 <= i < |s|
        ensures Coerce(Restricted, s[i]).Err? <==> RebuildsNonEmpty(Restricted, s[i])
      {
        CoerceRestrictedFails(s[i]);
      }
    case _ =>
  }

  /** A list, tuple or set comes back as the same type with the same
      length, each element coerced in place. */
  lemma CoerceCollection(t: Variant, c: Collection, s: seq<Value>)
    requires Coerce(t, Coll(c, s)).Ok?
    ensures var r := Coerce(t, Coll(c, s)).value;
      && r.Coll? && r.coll == c && |r.elems| == |s|
      && forall i :: 0 <= i < |s| ==> Coerce(t, s[i]) == Ok(r.elems[i])
  {
  }

  /** A dict that is not an instance of the container's class comes back as
      the container's class with the same keys in the same order and every
      value coerced. */
  lemma CoerceForeignDict(t: Variant, k: Kind, keys: seq<string>, vals: map<string, Value>)
    requires KeysMatch(keys, vals) && !IsA(k, t)
    requires Coerce(t, Dict(k, keys, vals)).Ok?
    ensures var r := Coerce(t, Dict(k, keys, vals)).value;
      && r.Dict? && r.kind == t && r.keys == keys && r.vals.Keys == vals.Keys
      && forall key :: key in vals ==> Coerce(t, vals[key]) == Ok(r.vals[key])
  {
  }

  /** A hashable value holds no dict, so coercion leaves it alone. */
  lemma {:induction false} HashableConforms(t: Variant, v: Value)
    requires Hashable(v)
    ensures Conforms(t, v)
    decreases v
  {
    if v.Coll? {
      forall i | 0 <= i < |v.elems| ensures Conforms(t, v.elems[i]) {
        HashableConforms(t, v.elems[i]);
      }
    }
  }

  /** The coerced value compares equal, under Python's `==`, to the value
      given: a rebuilt dict keeps the keys, their order and (recursively)
      equal values; lists and tuples keep equal elements in order; sets
      hold hashable elements, which coercion does not touch. */
  lemma {:induction false} CoerceEquals(t: Variant, v: Value)
    requires WellFormed(v) && SetsHashable(v)
    requires Coerce(t, v).Ok?
    ensures PyEq(v, Coerce(t, v).value)
    decreases v
  {
    var r := Coerce(t, v).value;
    if Conforms(t, v) {
      CoerceIdentity(t, v);
      PyEqReflexive(v);
    } else {
      match v
      case Dict(k, keys, vals) =>
        if t != Restricted {
          forall key | key in vals ensures PyEq(vals[key], r.vals[key]) {
            CoerceEquals(t, vals[key]);
          }
        }
      case Coll(c, s) =>
        if c == Set {
          forall i | 0 <= i < |s| ensures Conforms(t, s[i]) {
            HashableConforms(t, s[i]);
          }
          assert false;
        }
        forall i | 0 <= i < |s| ensures PyEq(s[i], r.elems[i]) {
          CoerceEquals(t, s[i]);
        }
      case _ =>
    }
  }
}

=== FILE: index.dfy ===
/** The index classes: `AttrIndex`, `LazyIndex` and `RestrictedIndex` hold
    one dictionary of the matching class and differ only in which one their
    constructor creates. Every method is proved against the function of the
    same name in `IndexOps` (or in `Mapping`, for the plain item
    operations). */
module Indexes {
  import opened Values
  import Coercion
  import Mapping
  import IndexOps
  import opened AttrDicts

  class Index {
    /** `self._index`, exposed read-only as the `index` property. */
    const index: AttrDict

    ghost predicate Valid()
      reads this, index
    {
      index.Valid()
    }

    /** `AttrIndex()`: an empty AttrDict. */
    constructor AttrIndex()
      ensures Valid() && fresh(index) && index.Abs() == Dict(Attr, [], map[])
    {
      index := new AttrDict.Empty(Attr);
    }

    /** `LazyIndex()`: an empty LazyAttrDict. */
    constructor LazyIndex()
      ensures Valid() && fresh(index) && index.Abs() == Dict(Lazy, [], map[])
    {
      index := new AttrDict.Empty(Lazy);
    }

    /** `RestrictedIndex()`: an empty RestrictedAttrDict. */
    constructor RestrictedIndex()
      ensures Valid() && fresh(index) && index.Abs() == Dict(Restricted, [], map[])
    {
      index := new AttrDict.Empty(Restricted);
    }

    /** `set_key(key, value)`; the default value `{}` is `EmptyPlain`. */
    method SetKey(key: string, value: Value) returns (r: Result<Value>)
      requires Valid() && WellFormed(value)
      modifies index
      ensures Valid()
      ensures Applied(Mapping.SetItem(old(index.Abs()), key, value), old(index.Abs()), r, index.Abs())
    {
      r := index.SetItem(key, value);
    }

    /** `get_key(key)`; the default `None` is `None`. */
    method GetKey(key: Value) returns (r: Result<Value>)
      requires key.None? || key.Str?
      ensures r == IndexOps.GetKey(index.Abs(), key)
      ensures !Truthy(key) ==> r == Ok(index.Abs())
    {
      if Truthy(key) {
        r := index.GetItem(key.s);
      } else {
        r := Ok(index.Abs());
      }
    }

    /** `del_key(key)`. */
    method DelKey(key: string) returns (r: Result<Value>)
      requires Valid()
      modifies index
      ensures Valid()
      ensures Applied(Mapping.DelItem(old(index.Abs()), key), old(index.Abs()), r, index.Abs())
    {
      r := index.DelItem(key);
    }

    /** `self._index[key][k] = v`, the statement in the loop of `set_arg`.
        The nested dict is changed in place in the source; here the changed
        nested value is written back through the index's `__setitem__`,
        which stores it as it is. */
    method AssignArg(key: string, k: string, v: Value) returns (r: Result<Value>)
      requires Valid() && key in index.vals && WellFormed(v)
      modifies index
      ensures Valid() && key in index.vals
      ensures Applied(IndexOps.WithArg(old(index.Abs()), key, k, v), old(index.Abs()), r, index.Abs())
    {
      var nested := index.GetItem(key);
      var n := nested.value;
      if !n.Dict? {
        return Err(TypeError(NoItemAssignment));
      }
      var changed := Mapping.SetItem(n, k, v);
      if changed.Err? {
        return Err(changed.error);
      }
      IndexOps.NestedSetItemHomogeneous(index.variant, n, k, v);
      Mapping.SetItemWellFormed(n, k, v);
      IndexOps.WriteBackKept(index.Abs(), key, changed.value);
      r := index.SetItem(key, changed.value);
    }

    /** `set_arg(key, **kwargs)`. */
    method SetArg(key: string, kwargs: seq<(string, Value)>) returns (r: Result<Value>)
      requires Valid()
      requires forall i :: 0 <= i < |kwargs| ==> WellFormed(kwargs[i].1)
      modifies index
      ensures Valid()
      ensures var e := IndexOps.SetArg(old(index.Abs()), key, kwargs);
        r == e.outcome && index.Abs() == e.state
    {
      ghost var target := IndexOps.SetArg(index.Abs(), key, kwargs);
      IndexOps.SetArgStart(index.Abs(), key, kwargs);
      if key !in index.vals {
        var res := SetKey(key, EmptyPlain);
      }
      assert kwargs[0..] == kwargs;
      var i := 0;
      while i < |kwargs|
        invariant 0 <= i <= |kwargs|
        invariant Valid() && key in index.vals
        invariant target == IndexOps.WithArgs(index.Abs(), key, kwargs[i..])
      {
        IndexOps.WithArgsStep(index.Abs(), key, kwargs, i);
        var res := AssignArg(key, kwargs[i].0, kwargs[i].1);
        if res.Err? {
          return res;
        }
        i := i + 1;
      }
      r := Ok(None);
    }

    /** `get_arg(key, arg)`. */
    method GetArg(key: string, arg: string) returns (x: Value)
      ensures x == IndexOps.GetArg(index.Abs(), key, arg)
      ensures key !in index.vals ==> x == None
    {
      x := None;
      if key in index.vals {
        var nested := index.GetItem(key);
        if nested.value.Dict? {
          x := Mapping.Get(nested.value, arg);
        }
      }
    }

    /** `del_arg(key, arg)`. The nested dict is changed in place in the
        source; here it is written back as for `set_arg`. */
    method DelArg(key: string, arg: string) returns (r: Result<Value>)
      requires Valid()
      modifies index
      ensures Valid()
      ensures Applied(IndexOps.DelArg(old(index.Abs()), key, arg), old(index.Abs()), r, index.Abs())
    {
      if key !in index.vals {
        return Ok(None);
      }
      var nested := index.GetItem(key);
      var n := nested.value;
      if !n.Dict? {
        return Ok(None);
      }
      var changed := Mapping.DelItem(n, arg);
      if changed.Err? {
        return Err(changed.error);
      }
      IndexOps.NestedDelItemHomogeneous(index.variant, n, arg);
      Mapping.RemoveWellFormed(n, arg);
      IndexOps.WriteBackKept(index.Abs(), key, changed.value);
      var res := index.SetItem(key, changed.value);
      r := Ok(None);
    }

    /** `check_arg(key, arg, value)`. */
    method CheckArg(key: string, arg: string, value: Value) returns (b: bool)
      ensures b == IndexOps.CheckArg(index.Abs(), key, arg, value)
      ensures b ==> PyEq(value, IndexOps.GetArg(index.Abs(), key, arg))
    {
      var x := GetArg(key, arg);
      b := PyEq(value, x);
    }
  }
}

=== FILE: index_ops.dfy ===
/** The two-level index (`AttrIndex`, `LazyIndex`, `RestrictedIndex`) as
    functions on the index dict's value: the first level maps a key to a
    nested value, normally a dict of arguments. */
module IndexOps {
  import opened Values
  import opened Coercion
  import opened Mapping

  /** The state an index method leaves and what it returns or raises. An
      exception escaping half-way leaves the changes made before it. */
  datatype Effect = Effect(state: Value, outcome: Result<Value>)

  /** `get_key(key)`: a truthy key is read with item syntax; `None` or the
      empty string give the whole index. */
  function GetKey(d: Value, key: Value): Result<Value>
    requires IsFamily(d) && (key.None? || key.Str?)
  {
    if Truthy(key) then GetItem(d, key.s) else Ok(d)
  }

  /** The nested value `set_arg(key, ...)` writes into: the stored one, or
      the `{}` that `set_key(key)` stores first, coerced into the index's
      class. */
  function Nested(d: Value, key: string): Value
    requires d.Dict?
  {
    if key in d.vals then d.vals[key] else Dict(d.kind, [], map[])
  }

  /** `self._index[key][k] = v` for a key present in the index: the nested
      value is assigned in place, so the index entry changes without
      passing through the index's own `__setitem__`. Item assignment on
      anything but a dict raises `TypeError`. */
  function WithArg(d: Value, key: string, k: string, v: Value): Result<Value>
    requires IsFamily(d) && key in d.vals
  {
    var nested := d.vals[key];
    if !nested.Dict? then Err(TypeError(NoItemAssignment))
    else
      match SetItem(nested, k, v)
      case Err(e) => Err(e)
      case Ok(n) => Ok(Store(d, key, n))
  }

  /** The loop over the keyword arguments: each one assigned in turn; the
      first failure escapes and leaves the earlier ones stored. */
  function WithArgs(d: Value, key: string, kwargs: seq<(string, Value)>): (e: Effect)
    requires IsFamily(d) && key in d.vals
    ensures IsFamily(e.state) && e.state.kind == d.kind && key in e.state.vals
    ensures e.outcome.Ok? ==> e.outcome == Ok(None)
    decreases kwargs
  {
    if kwargs == [] then Effect(d, Ok(None))
    else
      match WithArg(d, key, kwargs[0].0, kwargs[0].1)
      case Err(err) => Effect(d, Err(err))
      case Ok(d1) => WithArgs(d1, key, kwargs[1..])
  }

  /** `set_arg(key, **kwargs)`: a missing key is first set to `{}`. */
  function SetArg(d: Value, key: string, kwargs: seq<(string, Value)>): Effect
    requires IsFamily(d)
  {
    if key in d.vals then WithArgs(d, key, kwargs)
    else
      match SetItem(d, key, EmptyPlain)
      case Err(err) => Effect(d, Err(err))
      case Ok(d1) => WithArgs(d1, key, kwargs)
  }

  /** `get_arg(key, arg)`: the nested dict's `get(arg)`; a missing key, or
      a nested value without `get` (whose `AttributeError` is swallowed),
      gives `None`. */
  function GetArg(d: Value, key: string, arg: string): Value
    requires d.Dict?
  {
    if key in d.vals && d.vals[key].Dict? then Get(d.vals[key], arg) else None
  }

  /** `del_arg(key, arg)`: item deletion in the nested dict, in place. A
      missing key does nothing; a nested value that does not support item
      deletion raises `TypeError`, which is swallowed; a `KeyError` from a
      strict nested dict escapes. */
  function DelArg(d: Value, key: string, arg: string): Result<Value>
    requires d.Dict?
  {
    if key !in d.vals || !d.vals[key].Dict? then Ok(d)
    else
      match DelItem(d.vals[key], arg)
      case Err(err) => Err(err)
      case Ok(n) => Ok(Store(d, key, n))
  }

  /** `check_arg(key, arg, value)`: `value == get_arg(key, arg)`. */
  predicate CheckArg(d: Value, key: string, arg: string, value: Value)
    requires d.Dict?
  {
    PyEq(value, GetArg(d, key, arg))
  }

  /** `set_arg` starts from the index with `{}` stored under a missing
      key. */
  lemma SetArgStart(d: Value, key: string, kwargs: seq<(string, Value)>)
    requires IsFamily(d)
    ensures key in d.vals ==> SetArg(d, key, kwargs) == WithArgs(d, key, kwargs)
    ensures key !in d.vals ==>
      && SetItem(d, key, EmptyPlain) == Ok(Store(d, key, Dict(d.kind, [], map[])))
      && SetArg(d, key, kwargs) == WithArgs(Store(d, key, Dict(d.kind, [], map[])), key, kwargs)
  {
    if key !in d.vals {
      SetKeyDefault(d, key);
    }
  }

  /** One turn of the loop over the keyword arguments. */
  lemma WithArgsStep(d: Value, key: string, kwargs: seq<(string, Value)>, i: int)
    requires IsFamily(d) && key in d.vals && 0 <= i < |kwargs|
    ensures WithArgs(d, key, kwargs[i..]) ==
      match WithArg(d, key, kwargs[i].0, kwargs[i].1)
      case Err(err) => Effect(d, Err(err))
      case Ok(d1) => WithArgs(d1, key, kwargs[i + 1..])
  {
    assert kwargs[i..][0] == kwargs[i] && kwargs[i..][1..] == kwargs[i + 1..];
  }

  // ---------------------------------------------------------------------
  // Properties

  /** `set_key(key)` with the default `{}` stores an empty dict of the
      index's own class, on every kind of index (even RestrictedAttrDict,
      since there is nothing to re-store). */
  lemma SetKeyDefault(d: Value, key: string)
    requires IsFamily(d)
    ensures SetItem(d, key, EmptyPlain) == Ok(Store(d, key, Dict(d.kind, [], map[])))
  {
    if d.kind != Restricted {
      CoerceForeignDict(d.kind, Plain, [], map[]);
    }
  }

  /** Reading a key back: after `set_key(key, value)` succeeds, a non-empty
      `key` reads the stored, coerced value; `None` and `""` read the whole
      index. */
  lemma SetKeyThenGetKey(d: Value, key: string, value: Value)
    requires IsFamily(d) && key != ""
    requires SetItem(d, key, value).Ok?
    ensures GetKey(SetItem(d, key, value).value, Str(key)) == Stored(d.kind, value)
    ensures GetKey(d, None) == Ok(d) && GetKey(d, Str("")) == Ok(d)
  {
  }

  /** `get_key` of a missing, non-empty key raises `KeyError` on
      AttrIndex and gives `None` on LazyIndex and RestrictedIndex. */
  lemma GetKeyMissing(d: Value, key: string)
    requires IsFamily(d) && key != "" && key !in d.vals
    ensures GetKey(d, Str(key)) == if d.kind == Attr then Err(KeyError(key)) else Ok(None)
  {
  }

  /** Storing the keyword arguments into a present nested dict is storing
      them into that dict one by one through its `__setitem__`, and putting
      the result back in place; a failure escapes with the same error. */
  lemma {:induction false} WithArgsFill(d: Value, key: string, kwargs: seq<(string, Value)>)
    requires IsFamily(d) && key in d.vals && d.vals[key].Dict?
    ensures var n, e := d.vals[key], WithArgs(d, key, kwargs);
      && (e.outcome.Ok? <==> Fill(n, kwargs).Ok?)
      && (e.outcome.Ok? ==> e.state == Store(d, key, Fill(n, kwargs).value))
      && (e.outcome.Err? ==> e.outcome.error == Fill(n, kwargs).error)
    decreases kwargs
  {
    if kwargs != [] {
      var n := d.vals[key];
      match SetItem(n, kwargs[0].0, kwargs[0].1)
      case Err(err) =>
      case Ok(n1) =>
        var d1 := Store(d, key, n1);
        WithArgsFill(d1, key, kwargs[1..]);
        assert d1.vals[key] == n1;
        if Fill(n1, kwargs[1..]).Ok? {
          var m := Fill(n1, kwargs[1..]).value;
          assert d1.vals[key := m] == d.vals[key := m];
        }
    }
  }

  /** `set_arg` works on the index with the key's nested value in place
      (the `{}` stored first for a missing key). */
  lemma SetArgIsWithArgs(d: Value, key: string, kwargs: seq<(string, Value)>)
    requires IsFamily(d)
    ensures SetArg(d, key, kwargs) == WithArgs(Store(d, key, Nested(d, key)), key, kwargs)
  {
    if key !in d.vals {
      SetKeyDefault(d, key);
    } else {
      assert d.vals[key := d.vals[key]] == d.vals;
      assert Store(d, key, Nested(d, key)) == d;
    }
  }

  /** The keyword arguments stored into a nested dict are merged in, or
      refused by a RestrictedAttrDict. */
  lemma WithArgsMerges(d: Value, key: string, kwargs: seq<(string, Value)>)
    requires IsFamily(d) && key in d.vals && d.vals[key].Dict?
    ensures var n, e := d.vals[key], WithArgs(d, key, kwargs);
      if Storable(n.kind, kwargs) then e == Effect(Store(d, key, Merged(n, kwargs)), Ok(None))
      else n.kind == Restricted && e.outcome == Err(AttributeError(CantSet))
  {
    var n := d.vals[key];
    WithArgsFill(d, key, kwargs);
    FillFails(n, kwargs);
    if Storable(n.kind, kwargs) {
      FillMerges(n, kwargs);
    }
  }

  /** Item assignment into a nested value that is not a dict raises
      `TypeError` at the first argument and changes nothing. */
  lemma WithArgsNonDict(d: Value, key: string, kwargs: seq<(string, Value)>)
    requires IsFamily(d) && key in d.vals && !d.vals[key].Dict?
    ensures WithArgs(d, key, kwargs) ==
      if kwargs == [] then Effect(d, Ok(None)) else Effect(d, Err(TypeError(NoItemAssignment)))
  {
  }

  /** Storing twice under one key keeps the last value and the key's place. */
  lemma StoreTwice(d: Value, key: string, x: Value, y: Value)
    requires d.Dict?
    ensures Store(Store(d, key, x), key, y) == Store(d, key, y)
  {
    assert d.vals[key := x][key := y] == d.vals[key := y];
  }

  /** `set_arg(key, **kwargs)`: on a nested dict (stored, or the `{}` set
      first for a missing key) the arguments are merged in as `update`
      would merge them; only a RestrictedAttrDict can refuse, when an
      argument is a non-empty dict. A nested value that is not a dict
      raises `TypeError` as soon as there is an argument. Nothing else in
      the index changes. */
  lemma SetArgMerges(d: Value, key: string, kwargs: seq<(string, Value)>)
    requires IsFamily(d)
    ensures var n, e := Nested(d, key), SetArg(d, key, kwargs);
      if !n.Dict? then
        e == if kwargs == [] then Effect(d, Ok(None)) else Effect(d, Err(TypeError(NoItemAssignment)))
      else if Storable(n.kind, kwargs) then
        e == Effect(Store(d, key, Merged(n, kwargs)), Ok(None))
      else
        n.kind == Restricted && e.outcome == Err(AttributeError(CantSet))
  {
    var n := Nested(d, key);
    var d1 := Store(d, key, n);
    SetArgIsWithArgs(d, key, kwargs);
    if n.Dict? {
      WithArgsMerges(d1, key, kwargs);
      if Storable(n.kind, kwargs) {
        StoreTwice(d, key, n, Merged(n, kwargs));
      }
    } else {
      assert d1 == d;
      WithArgsNonDict(d1, key, kwargs);
    }
  }

  /** The names a merge brings into the nested dict are the argument names. */
  lemma {:induction false} StoredMapNames(k: Kind, kwargs: seq<(string, Value)>)
    requires Storable(k, kwargs)
    ensures forall a :: a in StoredMap(k, kwargs) <==> a in Names(kwargs)
    decreases kwargs
  {
    if kwargs != [] {
      StorableRest(k, kwargs);
      StoredMapNames(k, kwargs[1..]);
      assert Names(kwargs) == [kwargs[0].0] + Names(kwargs[1..]);
    }
  }

  /** Distinct names stay distinct without the first, which does not
      occur again. */
  lemma DistinctNamesRest(kwargs: seq<(string, Value)>)
    requires kwargs != [] && Distinct(Names(kwargs))
    ensures Distinct(Names(kwargs[1..])) && kwargs[0].0 !in Names(kwargs[1..])
  {
    var ns := Names(kwargs);
    assert Names(kwargs[1..]) == ns[1..];
  }

  /** With distinct names, each argument's stored value is its own value as
      the nested dict's `__setitem__` stores it. */
  lemma {:induction false} StoredMapAt(k: Kind, kwargs: seq<(string, Value)>, i: int)
    requires Storable(k, kwargs) && Distinct(Names(kwargs)) && 0 <= i < |kwargs|
    ensures kwargs[i].0 in StoredMap(k, kwargs)
    ensures Ok(StoredMap(k, kwargs)[kwargs[i].0]) == Stored(k, kwargs[i].1)
    decreases kwargs
  {
    StorableRest(k, kwargs);
    DistinctNamesRest(kwargs);
    var rest := StoredMap(k, kwargs[1..]);
    assert StoredMap(k, kwargs) == map[kwargs[0].0 := Stored(k, kwargs[0].1).value] + rest;
    if i == 0 {
      StoredMapNames(k, kwargs[1..]);
      assert kwargs[0].0 !in rest;
    } else {
      StoredMapAt(k, kwargs[1..], i - 1);
      assert kwargs[1..][i - 1] == kwargs[i];
    }
  }

  /** Reading the merged nested dict at an argument's name gives that
      argument's stored value. */
  lemma MergedGetArg(n: Value, kwargs: seq<(string, Value)>, i: int)
    requires n.Dict? && Storable(n.kind, kwargs) && Distinct(Names(kwargs)) && 0 <= i < |kwargs|
    ensures Ok(Get(Merged(n, kwargs), kwargs[i].0)) == Stored(n.kind, kwargs[i].1)
  {
    StoredMapAt(n.kind, kwargs, i);
  }

  /** Reading the merged nested dict at any other name reads as before. */
  lemma MergedGetOther(n: Value, kwargs: seq<(string, Value)>, a: string)
    requires n.Dict? && Storable(n.kind, kwargs) && a !in Names(kwargs)
    ensures Get(Merged(n, kwargs), a) == Get(n, a)
  {
    StoredMapNames(n.kind, kwargs);
  }

  /** What `get_arg` reads in `r`, the index after storing `kwargs` under
      `key` in `d`: each argument's stored value, every other argument of
      `key` as in `d`, and every other key of the index as in `d`. */
  ghost predicate ArgsStored(d: Value, key: string, kwargs: seq<(string, Value)>, r: Value)
    requires d.Dict? && r.Dict?
  {
    && (Nested(d, key).Dict? ==>
         forall i :: 0 <= i < |kwargs| ==> Ok(GetArg(r, key, kwargs[i].0)) == Stored(Nested(d, key).kind, kwargs[i].1))
    && (forall a :: a !in Names(kwargs) ==> GetArg(r, key, a) == GetArg(d, key, a))
    && (forall k :: k != key ==> GetItem(r, k) == GetItem(d, k))
  }

  /** The index with the arguments merged into the key's nested dict reads
      as `ArgsStored` says. */
  lemma MergedArgsStored(d: Value, key: string, kwargs: seq<(string, Value)>)
    requires IsFamily(d) && Nested(d, key).Dict? && Storable(Nested(d, key).kind, kwargs)
    requires Distinct(Names(kwargs))
    ensures ArgsStored(d, key, kwargs, Store(d, key, Merged(Nested(d, key), kwargs)))
  {
    var n := Nested(d, key);
    var m := Merged(n, kwargs);
    var r := Store(d, key, m);
    GetArgStored(d, key, m);
    GetArgNested(d, key);
    forall i | 0 <= i < |kwargs| ensures Ok(GetArg(r, key, kwargs[i].0)) == Stored(n.kind, kwargs[i].1) {
      MergedGetArg(n, kwargs, i);
    }
    forall a | a !in Names(kwargs) ensures GetArg(r, key, a) == GetArg(d, key, a) {
      MergedGetOther(n, kwargs, a);
    }
  }

  /** `get_arg` on a key just written with a dict reads that dict. */
  lemma GetArgStored(d: Value, key: string, m: Value)
    requires d.Dict? && m.Dict?
    ensures forall a :: GetArg(Store(d, key, m), key, a) == Get(m, a)
  {
  }

  /** `get_arg` on a key whose nested value is a dict (or missing) reads
      that nested value. */
  lemma GetArgNested(d: Value, key: string)
    requires d.Dict? && Nested(d, key).Dict?
    ensures forall a :: GetArg(d, key, a) == Get(Nested(d, key), a)
  {
  }

  /** After `set_arg(key, **kwargs)` succeeds, `get_arg(key, name)` gives
      each argument's stored value, every other argument of `key` reads as
      before, and every other key of the index is unchanged. */
  lemma SetArgThenGetArg(d: Value, key: string, kwargs: seq<(string, Value)>)
    requires IsFamily(d) && Distinct(Names(kwargs))
    requires SetArg(d, key, kwargs).outcome.Ok?
    ensures ArgsStored(d, key, kwargs, SetArg(d, key, kwargs).state)
  {
    SetArgMerges(d, key, kwargs);
    if Nested(d, key).Dict? {
      MergedArgsStored(d, key, kwargs);
    }
  }

  /** `check_arg` holds of what `get_arg` returns, and of `None` for an
      argument that is not there. */
  lemma CheckArgReflexive(d: Value, key: string, arg: string)
    requires d.Dict?
    ensures CheckArg(d, key, arg, GetArg(d, key, arg))
    ensures (key !in d.vals || !d.vals[key].Dict? || arg !in d.vals[key].vals) ==> CheckArg(d, key, arg, None)
  {
    PyEqReflexive(GetArg(d, key, arg));
  }

  /** After `set_arg(key, name=value)` succeeds, `check_arg(key, name,
      value)` holds: the stored value is the coerced one, which compares
      equal to the value given. */
  lemma SetArgThenCheckArg(d: Value, key: string, name: string, value: Value)
    requires IsFamily(d) && WellFormed(value) && SetsHashable(value)
    requires SetArg(d, key, [(name, value)]).outcome.Ok?
    ensures CheckArg(SetArg(d, key, [(name, value)]).state, key, name, value)
  {
    assert Names([(name, value)]) == [name];
    SetArgMerges(d, key, [(name, value)]);
    SetArgThenGetArg(d, key, [(name, value)]);
    var n := Nested(d, key);
    if n.kind == Plain {
      PyEqReflexive(value);
    } else {
      CoerceEquals(n.kind, value);
    }
  }

  /** `del_arg(key, arg)`: it raises, with `KeyError(arg)`, exactly when the
      nested value is a strict dict without `arg`. Otherwise the argument is
      gone afterwards, the other arguments and the other keys are as
      before, and the index keeps its key order. An absent key, or a nested
      value that is not a dict, leaves the index as it was. */
  lemma DelArgRemoves(d: Value, key: string, arg: string)
    requires d.Dict? && WellFormed(d)
    ensures DelArg(d, key, arg).Err? <==>
      key in d.vals && d.vals[key].Dict? && arg !in d.vals[key].vals && !Lenient(d.vals[key].kind)
    ensures DelArg(d, key, arg).Err? ==> DelArg(d, key, arg).error == KeyError(arg)
    ensures DelArg(d, key, arg).Ok? ==>
      var r := DelArg(d, key, arg).value;
      && GetArg(r, key, arg) == None
      && (forall a :: a != arg ==> GetArg(r, key, a) == GetArg(d, key, a))
      && (forall k :: k != key ==> GetItem(r, k) == GetItem(d, k))
      && r.keys == d.keys
    ensures key !in d.vals || !d.vals[key].Dict? ==> DelArg(d, key, arg) == Ok(d)
    ensures DelArg(d, key, arg).Ok? && key in d.vals && d.vals[key].Dict? ==>
      var n := d.vals[key];
      && key in DelArg(d, key, arg).value.vals
      && DelArg(d, key, arg).value.vals[key] == Dict(n.kind, Without(n.keys, arg), n.vals - {arg})
      && arg !in DelArg(d, key, arg).value.vals[key].vals
  {
    if key in d.vals && d.vals[key].Dict? && DelArg(d, key, arg).Ok? {
      DelArgNested(d, key, arg);
    }
  }

  /** When the nested value is a dict, a successful `del_arg` leaves in its
      place the nested dict with `arg` taken out of its order and its map. */
  lemma DelArgNested(d: Value, key: string, arg: string)
    requires d.Dict? && WellFormed(d) && key in d.vals && d.vals[key].Dict?
    requires DelArg(d, key, arg).Ok?
    ensures var n := d.vals[key];
      && key in DelArg(d, key, arg).value.vals
      && DelArg(d, key, arg).value.vals[key] == Dict(n.kind, Without(n.keys, arg), n.vals - {arg})
  {
    var n := d.vals[key];
    if arg !in n.vals {
      assert n.vals - {arg} == n.vals;
    }
  }

  /** Writing a changed nested dict back into the index through the
      index's `__setitem__` stores it as it is, as the in-place change
      does: the nested dict stays an instance of the index's class. */
  lemma WriteBackKept(d: Value, key: string, n: Value)
    requires IsFamily(d) && n.Dict? && Homogeneous(d.kind, n)
    ensures SetItem(d, key, n) == Ok(Store(d, key, n))
  {
    StoredKept(d.kind, n);
  }

  /** Item assignment in a nested dict keeps it homogeneous for the index's
      class. */
  lemma NestedSetItemHomogeneous(t: Variant, n: Value, k: string, v: Value)
    requires n.Dict? && Homogeneous(t, n) && WellFormed(v)
    requires SetItem(n, k, v).Ok?
    ensures Homogeneous(t, SetItem(n, k, v).value)
  {
    assert IsA(n.kind, t);
    CoerceHomogeneous(n.kind, v);
    HomogeneousWeaken(n.kind, t, Coerce(n.kind, v).value);
  }

  /** Item deletion in a nested dict keeps it homogeneous for the index's
      class. */
  lemma NestedDelItemHomogeneous(t: Variant, n: Value, k: string)
    requires n.Dict? && Homogeneous(t, n)
    requires DelItem(n, k).Ok?
    ensures Homogeneous(t, DelItem(n, k).value)
  {
  }

  /** The LazyIndex usage example, first half: `set_arg('A', a=1, b=2,
      c=3)` then `set_key('B')` give `{'A': {'a': 1, 'b': 2, 'c': 3},
      'B': {}}`. */
  lemma LazyIndexSetExample()
    ensures var e := SetArg(Dict(Lazy, [], map[]), "A", [("a", Int(1)), ("b", Int(2)), ("c", Int(3))]);
      && e.outcome == Ok(None)
      && SetItem(e.state, "B", EmptyPlain) == Ok(ExampleIndex())
  {
    var kw := [("a", Int(1)), ("b", Int(2)), ("c", Int(3))];
    var empty := Dict(Lazy, [], map[]);
    var a0 := Store(empty, "A", empty);
    SetArgStart(empty, "A", kw);
    var n1 := Dict(Lazy, empty.keys + ["a"], empty.vals["a" := Int(1)]);
    var n2 := Dict(Lazy, n1.keys + ["b"], n1.vals["b" := Int(2)]);
    var n3 := Dict(Lazy, n2.keys + ["c"], n2.vals["c" := Int(3)]);
    StepExample(empty, empty, "a", Int(1));
    StepExample(empty, n1, "b", Int(2));
    StepExample(empty, n2, "c", Int(3));
    assert WithArgs(a0, "A", kw) == WithArgs(Store(empty, "A", n1), "A", kw[1..]);
    assert WithArgs(Store(empty, "A", n1), "A", kw[1..]) == WithArgs(Store(empty, "A", n2), "A", kw[2..]);
    assert WithArgs(Store(empty, "A", n2), "A", kw[2..]) == WithArgs(Store(empty, "A", n3), "A", kw[3..]);
    assert n3 == ExampleIndex().vals["A"];
    var a3 := Store(empty, "A", n3);
    SetKeyDefault(a3, "B");
    assert Store(a3, "B", empty) == ExampleIndex();
  }

  /** The index of the LazyIndex usage example. */
  function ExampleIndex(): Value {
    Dict(Lazy, ["A", "B"], map["A" := Dict(Lazy, ["a", "b", "c"], map["a" := Int(1), "b" := Int(2), "c" := Int(3)]),
                               "B" := Dict(Lazy, [], map[])])
  }

  /** The LazyIndex usage example, second half: `get_arg('A', 'b')` is 2;
      after `del_arg('A', 'c')` the entry is `{'a': 1, 'b': 2}` and
      `check_arg('A', 'b', 2)` holds. */
  lemma LazyIndexDelExample()
    ensures GetArg(ExampleIndex(), "A", "b") == Int(2)
    ensures DelArg(ExampleIndex(), "A", "c") ==
      Ok(Dict(Lazy, ["A", "B"], map["A" := Dict(Lazy, ["a", "b"], map["a" := Int(1), "b" := Int(2)]), "B" := Dict(Lazy, [], map[])]))
    ensures CheckArg(DelArg(ExampleIndex(), "A", "c").value, "A", "b", Int(2))
  {
    var d := ExampleIndex();
    var abc := d.vals["A"];
    var ab := Dict(Lazy, ["a", "b"], map["a" := Int(1), "b" := Int(2)]);
    assert abc.vals - {"c"} == ab.vals;
    assert Without(abc.keys, "c") == ["a", "b"];
    assert DelItem(abc, "c") == Ok(ab);
    assert Store(d, "A", ab).vals == map["A" := ab, "B" := Dict(Lazy, [], map[])];
  }

  /** One argument of the example stored into the nested dict under `"A"`. */
  lemma StepExample(empty: Value, n: Value, k: string, v: Value)
    requires empty == Dict(Lazy, [], map[]) && n.Dict? && n.kind == Lazy && k !in n.vals && v.Int?
    ensures WithArg(Store(empty, "A", n), "A", k, v) == Ok(Store(empty, "A", Dict(Lazy, n.keys + [k], n.vals[k := v])))
  {
    var d := Store(empty, "A", n);
    assert d.keys == ["A"];
    assert SetItem(n, k, v) == Ok(Dict(Lazy, n.keys + [k], n.vals[k := v]));
    assert d.vals["A" := Dict(Lazy, n.keys + [k], n.vals[k := v])] == map["A" := Dict(Lazy, n.keys + [k], n.vals[k := v])];
  }
}

=== FILE: mapping.dfy ===
/** The operations of the attribute dictionaries as functions on dict
    values. A dict value's `kind` selects the class's behaviour: `AttrDict`
    is strict, `LazyAttrDict` reads a missing key as `None` and ignores
    deleting it, `RestrictedAttrDict` refuses attribute-syntax writes and
    deletes. A function that changes the dict returns the new dict (or the
    exception it raises, in which case the dict is unchanged). */
module Mapping {
  import opened Values
  import opened Coercion

  /** A dict of one of the attribute-dictionary classes. */
  predicate IsFamily(d: Value) {
    d.Dict? && d.kind != Plain
  }

  // ---------------------------------------------------------------------
  // The underlying ordered dict

  /** Raw `OrderedDict.__setitem__`: an existing key keeps its place, a new
      key goes last. */
  function Store(d: Value, key: string, x: Value): Value
    requires d.Dict?
  {
    Dict(d.kind, if key in d.vals then d.keys else d.keys + [key], d.vals[key := x])
  }

  /** A key order with one key taken out. */
  function Without(keys: seq<string>, key: string): (r: seq<string>)
    ensures forall k :: k in r <==> k in keys && k != key
    ensures Distinct(keys) ==> Distinct(r)
    ensures key !in keys ==> r == keys
  {
    if keys == [] then []
    else if keys[0] == key then Without(keys[1..], key)
    else
      var rest := Without(keys[1..], key);
      assert Distinct(keys) ==> Distinct(keys[1..]) && keys[0] !in keys[1..];
      [keys[0]] + rest
  }

  /** Raw `OrderedDict.__delitem__` of a present key. */
  function Remove(d: Value, key: string): Value
    requires d.Dict?
  {
    Dict(d.kind, Without(d.keys, key), d.vals - {key})
  }

  /** The items of a dict in iteration order. */
  function Items(keys: seq<string>, vals: map<string, Value>): (r: seq<(string, Value)>)
    requires forall i :: 0 <= i < |keys| ==> keys[i] in vals
    ensures |r| == |keys|
  {
    if keys == [] then [] else [(keys[0], vals[keys[0]])] + Items(keys[1..], vals)
  }

  // ---------------------------------------------------------------------
  // Item syntax

  /** What `__setitem__` of a dict of kind `k` stores for `v`: the family's
      classes coerce the value into their own class; a builtin dict stores
      it as it is. */
  function Stored(k: Kind, v: Value): Result<Value> {
    if k == Plain then Ok(v) else Coerce(k, v)
  }

  /** `d[key] = v` (AttrDict.__setitem__): store the coerced value. */
  function SetItem(d: Value, key: string, v: Value): Result<Value>
    requires d.Dict?
  {
    match Stored(d.kind, v)
    case Ok(x) => Ok(Store(d, key, x))
    case Err(e) => Err(e)
  }

  /** `d[key]`: the stored value; a missing key raises `KeyError` on a
      strict dict and reads as `None` on LazyAttrDict and its subclass,
      which do not insert it. */
  function GetItem(d: Value, key: string): Result<Value>
    requires d.Dict?
  {
    if key in d.vals then Ok(d.vals[key])
    else if Lenient(d.kind) then Ok(None)
    else Err(KeyError(key))
  }

  /** `del d[key]`: a missing key raises `KeyError` on a strict dict and is
      ignored on LazyAttrDict and its subclass. */
  function DelItem(d: Value, key: string): Result<Value>
    requires d.Dict?
  {
    if key in d.vals then Ok(Remove(d, key))
    else if Lenient(d.kind) then Ok(d)
    else Err(KeyError(key))
  }

  /** `d.get(key)`: the stored value or `None`, for every kind. */
  function Get(d: Value, key: string): Value
    requires d.Dict?
  {
    if key in d.vals then d.vals[key] else None
  }

  /** `d.pop(key)`: the removed value and the dict without it; a missing
      key raises `KeyError` on every kind. */
  function Pop(d: Value, key: string): Result<(Value, Value)>
    requires d.Dict?
  {
    if key in d.vals then Ok((d.vals[key], Remove(d, key))) else Err(KeyError(key))
  }

  // ---------------------------------------------------------------------
  // Attribute syntax

  /** `d.name` (AttrDict.__getattr__): item read, with a `KeyError`
      re-raised as `AttributeError`. */
  function GetAttr(d: Value, name: string): Result<Value>
    requires IsFamily(d)
  {
    Translate(GetItem(d, name))
  }

  /** `d.name = v`: forwarded to item assignment, except that
      RestrictedAttrDict always raises. */
  function SetAttr(d: Value, name: string, v: Value): Result<Value>
    requires IsFamily(d)
  {
    if d.kind == Restricted then Err(AttributeError(CantSet)) else SetItem(d, name, v)
  }

  /** `del d.name`: item deletion with a `KeyError` re-raised as
      `AttributeError`, except that RestrictedAttrDict always raises. */
  function DelAttr(d: Value, name: string): Result<Value>
    requires IsFamily(d)
  {
    if d.kind == Restricted then Err(AttributeError(CantDelete)) else Translate(DelItem(d, name))
  }

  // ---------------------------------------------------------------------
  // Whole-dict operations

  /** `d.setdefault(key, default)`: the default is coerced first (even when
      the key is present); a present key returns its value and changes
      nothing; an absent key is stored through `__setitem__` and the
      coerced default is returned. Gives the returned value and the dict.
      Python's optional `default=None` is passed here as `Value.None`. */
  function SetDefault(d: Value, key: string, default: Value): Result<(Value, Value)>
    requires IsFamily(d)
  {
    match Coerce(d.kind, default)
    case Err(e) => Err(e)
    case Ok(x) =>
      if key in d.vals then Ok((d.vals[key], d))
      else
        match SetItem(d, key, x)
        case Ok(d') => Ok((x, d'))
        case Err(e) => Err(e)
  }

  /** Pairs stored one by one through `__setitem__`, as
      `OrderedDict.__init__` and `OrderedDict.update` do; the first
      failure escapes. */
  function Fill(d: Value, pairs: seq<(string, Value)>): (r: Result<Value>)
    requires d.Dict?
    ensures r.Ok? ==> r.value.Dict? && r.value.kind == d.kind
    ensures r.Ok? && KeysMatch(d.keys, d.vals) ==> KeysMatch(r.value.keys, r.value.vals)
    decreases pairs
  {
    if pairs == [] then Ok(d)
    else
      match SetItem(d, pairs[0].0, pairs[0].1)
      case Err(e) => Err(e)
      case Ok(d1) => Fill(d1, pairs[1..])
  }

  /** `cls(pairs)` for a class of the family. `OrderedDict.__init__`
      stores every pair through the class's `__setitem__`; then `__init__`
      re-stores every item through `setattr`. On AttrDict and LazyAttrDict
      that second pass stores what is already there; on RestrictedAttrDict
      its first `setattr` raises. */
  function Construct(t: Variant, pairs: seq<(string, Value)>): Result<Value> {
    match Fill(Dict(t, [], map[]), pairs)
    case Err(e) => Err(e)
    case Ok(d) => if t == Restricted && d.keys != [] then Err(AttributeError(CantSet)) else Ok(d)
  }

  /** `d.copy()`: the class rebuilt from the dict's own items. */
  function Copy(d: Value): Result<Value>
    requires IsFamily(d) && KeysMatch(d.keys, d.vals)
  {
    Construct(d.kind, Items(d.keys, d.vals))
  }

  /** `d.update(pairs)`: the pairs are first built into a dict of the same
      class, whose items are then stored into `d` through `__setitem__`. */
  function Update(d: Value, pairs: seq<(string, Value)>): Result<Value>
    requires IsFamily(d)
  {
    match Construct(d.kind, pairs)
    case Err(e) => Err(e)
    case Ok(o) => Fill(d, Items(o.keys, o.vals))
  }

  /** `cls.from_json(string)` once the text is parsed into `parsed`: a
      parsed value that is not a JSON object raises `TypeError`;
      RestrictedAttrDict.from_json always raises `AttributeError`. */
  function FromJson(t: Variant, parsed: Value): Result<Value>
    requires WellFormed(parsed)
  {
    if t == Restricted then Err(AttributeError(CantSet))
    else if !parsed.Dict? then Err(TypeError(NotADictionary))
    else Construct(t, Items(parsed.keys, parsed.vals))
  }

  // ---------------------------------------------------------------------
  // A reference definition of storing a sequence of pairs

  /** The names of the pairs, in order. */
  function Names(pairs: seq<(string, Value)>): (r: seq<string>)
    ensures |r| == |pairs| && forall i :: 0 <= i < |pairs| ==> r[i] == pairs[i].0
  {
    if pairs == [] then [] else [pairs[0].0] + Names(pairs[1..])
  }

  /** The names not yet in `seen`, each once, in order of first occurrence. */
  function NewKeys(names: seq<string>, seen: set<string>): (r: seq<string>)
    ensures forall k :: k in r <==> k in names && k !in seen
    ensures Distinct(r)
  {
    if names == [] then []
    else if names[0] in seen then NewKeys(names[1..], seen)
    else [names[0]] + NewKeys(names[1..], seen + {names[0]})
  }

  /** Every value of the pairs can be stored in a dict of kind `k`. */
  predicate Storable(k: Kind, pairs: seq<(string, Value)>) {
    forall i :: 0 <= i < |pairs| ==> Stored(k, pairs[i].1).Ok?
  }

  /** The stored value of each name; a later pair overrides an earlier one. */
  function StoredMap(k: Kind, pairs: seq<(string, Value)>): (m: map<string, Value>)
    requires Storable(k, pairs)
  {
    if pairs == [] then map[]
    else map[pairs[0].0 := Stored(k, pairs[0].1).value] + StoredMap(k, pairs[1..])
  }

  /** The dict `d` with `pairs` merged in: existing keys keep their place,
      new keys are appended in order of first occurrence, the stored values
      of the pairs override. */
  function Merged(d: Value, pairs: seq<(string, Value)>): Value
    requires d.Dict? && Storable(d.kind, pairs)
  {
    Dict(d.kind, d.keys + NewKeys(Names(pairs), d.vals.Keys), d.vals + StoredMap(d.kind, pairs))
  }

  /** The new keys of a list that starts with `n`. */
  lemma NewKeysCons(n: string, names: seq<string>, seen: set<string>)
    ensures n in seen ==> NewKeys([n] + names, seen) == NewKeys(names, seen)
    ensures n !in seen ==> NewKeys([n] + names, seen) == [n] + NewKeys(names, seen + {n})
  {
    assert ([n] + names)[1..] == names;
  }

  /** Merging a one-entry map and then a map is updating and then merging. */
  lemma MergeUpdate(a: map<string, Value>, n: string, x: Value, m: map<string, Value>)
    ensures a + (map[n := x] + m) == a[n := x] + m
  {
  }

  /** Dropping the first pair keeps the rest storable. */
  lemma StorableRest(k: Kind, pairs: seq<(string, Value)>)
    requires Storable(k, pairs) && pairs != []
    ensures Storable(k, pairs[1..])
  {
    forall i | 0 <= i < |pairs[1..]| ensures Stored(k, pairs[1..][i].1).Ok? {
      assert pairs[1..][i] == pairs[i + 1];
    }
  }

  /** Storing one name and then appending the new keys of the rest gives
      the key order that appending the new keys of all the names gives. */
  lemma MergedKeysStep(d: Value, n: string, x: Value, names: seq<string>)
    requires d.Dict?
    ensures d.keys + NewKeys([n] + names, d.vals.Keys) == Store(d, n, x).keys + NewKeys(names, Store(d, n, x).vals.Keys)
  {
    var seen := d.vals.Keys;
    if n in seen {
      NewKeysCons(n, names, seen);
      assert Store(d, n, x).vals.Keys == seen;
    } else {
      NewKeysAppend(d.keys, n, names, seen);
      assert Store(d, n, x).vals.Keys == seen + {n};
    }
  }

  /** A name not yet seen goes after the existing keys, ahead of the new
      keys of the names after it. */
  lemma NewKeysAppend(keys: seq<string>, n: string, names: seq<string>, seen: set<string>)
    requires n !in seen
    ensures keys + NewKeys([n] + names, seen) == (keys + [n]) + NewKeys(names, seen + {n})
  {
    NewKeysCons(n, names, seen);
  }

  /** One step of the merge: merging `pairs` is storing the first pair and
      merging the rest. */
  lemma MergedStep(d: Value, pairs: seq<(string, Value)>)
    requires d.Dict? && Storable(d.kind, pairs) && pairs != []
    ensures Storable(d.kind, pairs[1..])
    ensures Merged(d, pairs) == Merged(Store(d, pairs[0].0, Stored(d.kind, pairs[0].1).value), pairs[1..])
  {
    var n, x, rest := pairs[0].0, Stored(d.kind, pairs[0].1).value, pairs[1..];
    StorableRest(d.kind, pairs);
    assert Names(pairs) == [n] + Names(rest);
    MergedKeysStep(d, n, x, Names(rest));
    var m1 := StoredMap(d.kind, rest);
    assert StoredMap(d.kind, pairs) == map[n := x] + m1;
    MergeUpdate(d.vals, n, x, m1);
  }

  /** Storing pairs one by one through `__setitem__` gives the merged dict. */
  lemma {:induction false} FillMerges(d: Value, pairs: seq<(string, Value)>)
    requires d.Dict? && Storable(d.kind, pairs)
    ensures Fill(d, pairs) == Ok(Merged(d, pairs))
    decreases pairs
  {
    if pairs != [] {
      MergedStep(d, pairs);
      var d1 := Store(d, pairs[0].0, Stored(d.kind, pairs[0].1).value);
      assert Fill(d, pairs) == Fill(d1, pairs[1..]);
      FillMerges(d1, pairs[1..]);
    } else {
      assert d.keys + [] == d.keys && d.vals + map[] == d.vals;
    }
  }

  /** Storing pairs fails exactly when one of the values cannot be stored. */
  lemma {:induction false} FillFails(d: Value, pairs: seq<(string, Value)>)
    requires d.Dict?
    ensures Fill(d, pairs).Err? <==> !Storable(d.kind, pairs)
    ensures Fill(d, pairs).Err? ==> d.kind == Restricted && Fill(d, pairs).error == AttributeError(CantSet)
    decreases pairs
  {
    if pairs != [] {
      match SetItem(d, pairs[0].0, pairs[0].1)
      case Err(e) =>
      case Ok(d1) =>
        FillFails(d1, pairs[1..]);
        if !Storable(d.kind, pairs) {
          var i :| 0 <= i < |pairs| && Stored(d.kind, pairs[i].1).Err?;
          assert i > 0 && pairs[1..][i - 1] == pairs[i];
        } else {
          forall i | 0 <= i < |pairs[1..]| ensures Stored(d.kind, pairs[1..][i].1).Ok? {
            assert pairs[1..][i] == pairs[i + 1];
          }
        }
    }
  }

  /** The names of a dict's items are its keys. */
  lemma {:induction false} NamesOfItems(keys: seq<string>, vals: map<string, Value>)
    requires forall i :: 0 <= i < |keys| ==> keys[i] in vals
    ensures Names(Items(keys, vals)) == keys
    decreases keys
  {
    if keys != [] {
      NamesOfItems(keys[1..], vals);
    }
  }

  /** The i-th item of a dict is its i-th key with that key's value. */
  lemma {:induction false} ItemsAreItems(keys: seq<string>, vals: map<string, Value>, i: int)
    requires forall j :: 0 <= j < |keys| ==> keys[j] in vals
    requires 0 <= i < |keys|
    ensures Items(keys, vals)[i] == (keys[i], vals[keys[i]])
    decreases keys
  {
    if i > 0 {
      ItemsAreItems(keys[1..], vals, i - 1);
    }
  }

  /** The values of a well-formed dict's items are well formed. */
  lemma ItemsWellFormed(d: Value)
    requires d.Dict? && WellFormed(d)
    ensures forall i :: 0 <= i < |d.keys| ==> WellFormed(Items(d.keys, d.vals)[i].1)
  {
    forall i | 0 <= i < |d.keys| ensures WellFormed(Items(d.keys, d.vals)[i].1) {
      ItemsAreItems(d.keys, d.vals, i);
    }
  }

  /** Storing a dict's items in a dict of kind `k` stores each value as
      `__setitem__` of kind `k` would. */
  lemma {:induction false} StoredMapOfItems(k: Kind, keys: seq<string>, vals: map<string, Value>)
    requires forall i :: 0 <= i < |keys| ==> keys[i] in vals
    requires forall i :: 0 <= i < |keys| ==> Stored(k, vals[keys[i]]).Ok?
    ensures Storable(k, Items(keys, vals))
    ensures forall key :: key in StoredMap(k, Items(keys, vals)) <==> key in keys
    ensures forall key :: key in keys ==> Ok(StoredMap(k, Items(keys, vals))[key]) == Stored(k, vals[key])
    decreases keys
  {
    if keys != [] {
      StoredMapOfItems(k, keys[1..], vals);
      var ps := Items(keys, vals);
      assert ps == [(keys[0], vals[keys[0]])] + Items(keys[1..], vals);
      forall i | 0 <= i < |ps| ensures Stored(k, ps[i].1).Ok? {
        if i > 0 { assert ps[i] == Items(keys[1..], vals)[i - 1]; }
      }
      assert forall key :: key in keys <==> key == keys[0] || key in keys[1..];
    }
  }

  /** A new key list made of distinct names none of which is yet seen is
      the names themselves. */
  lemma {:induction false} NewKeysFresh(names: seq<string>, seen: set<string>)
    requires Distinct(names)
    requires forall i :: 0 <= i < |names| ==> names[i] !in seen
    ensures NewKeys(names, seen) == names
    decreases names
  {
    if names != [] {
      assert names[0] !in names[1..];
      NewKeysFresh(names[1..], seen + {names[0]});
    }
  }

  /** A value homogeneous for the container's class is stored as it is. */
  lemma StoredKept(k: Kind, v: Value)
    requires Homogeneous(k, v)
    ensures Stored(k, v) == Ok(v)
  {
    if k != Plain {
      HomogeneousConforms(k, v);
      CoerceIdentity(k, v);
    }
  }

  /** The items of a well-formed dict, stored in a dict of the same class
      (or of a superclass), are stored unchanged. */
  lemma ItemsStoredUnchanged(k: Kind, o: Value)
    requires o.Dict? && WellFormed(o) && IsA(o.kind, k)
    ensures Storable(k, Items(o.keys, o.vals))
    ensures StoredMap(k, Items(o.keys, o.vals)) == o.vals
  {
    forall key | key in o.vals ensures Stored(k, o.vals[key]) == Ok(o.vals[key]) {
      HomogeneousWeaken(o.kind, k, o.vals[key]);
      StoredKept(k, o.vals[key]);
    }
    StoredMapOfItems(k, o.keys, o.vals);
    var m := StoredMap(k, Items(o.keys, o.vals));
    assert m.Keys == o.vals.Keys;
    assert m == o.vals;
  }

  /** Storing the items of a well-formed dict of the same class (or of a
      subclass) stores its values unchanged: existing keys take the new
      values in place, new keys are appended in the dict's order. */
  lemma FillWithItems(d: Value, o: Value)
    requires d.Dict? && o.Dict? && WellFormed(o) && IsA(o.kind, d.kind)
    ensures Fill(d, Items(o.keys, o.vals)) == Ok(Dict(d.kind, d.keys + NewKeys(o.keys, d.vals.Keys), d.vals + o.vals))
  {
    ItemsStoredUnchanged(d.kind, o);
    NamesOfItems(o.keys, o.vals);
    FillMerges(d, Items(o.keys, o.vals));
  }

  /** Storing a concatenation of pairs is storing the first part and then,
      if that succeeded, the second; a failure stops the rest. */
  lemma {:induction false} FillConcat(d: Value, ps: seq<(string, Value)>, qs: seq<(string, Value)>)
    requires d.Dict?
    ensures Fill(d, ps + qs) == match Fill(d, ps) case Ok(d1) => Fill(d1, qs) case Err(e) => Err(e)
    decreases ps
  {
    if ps == [] {
      assert ps + qs == qs;
    } else {
      assert (ps + qs)[0] == ps[0] && (ps + qs)[1..] == ps[1..] + qs;
      match SetItem(d, ps[0].0, ps[0].1)
      case Err(e) =>
      case Ok(d1) => FillConcat(d1, ps[1..], qs);
    }
  }

  /** Storing one more pair after a prefix. */
  lemma FillSnoc(d: Value, ps: seq<(string, Value)>, i: int)
    requires d.Dict? && 0 <= i < |ps|
    ensures Fill(d, ps[..i + 1]) == match Fill(d, ps[..i]) case Ok(d1) => SetItem(d1, ps[i].0, ps[i].1) case Err(e) => Err(e)
  {
    assert ps[..i + 1] == ps[..i] + [ps[i]];
    FillConcat(d, ps[..i], [ps[i]]);
    if Fill(d, ps[..i]).Ok? {
      var d1 := Fill(d, ps[..i]).value;
      assert [ps[i]][1..] == [];
      match SetItem(d1, ps[i].0, ps[i].1)
      case Err(e) =>
      case Ok(d2) => assert Fill(d2, []) == Ok(d2);
    }
  }

  /** Once a prefix of the pairs fails, storing all of them fails the same
      way. */
  lemma FillPrefixFails(d: Value, ps: seq<(string, Value)>, i: int)
    requires d.Dict? && 0 <= i <= |ps| && Fill(d, ps[..i]).Err?
    ensures Fill(d, ps) == Fill(d, ps[..i])
  {
    assert ps == ps[..i] + ps[i..];
    FillConcat(d, ps[..i], ps[i..]);
  }

  /** The second pass of `__init__` re-stores each item through `setattr`:
      on AttrDict and LazyAttrDict this leaves a well-formed dict as it is;
      on RestrictedAttrDict it raises. */
  lemma SetAttrRestores(d: Value, key: string)
    requires IsFamily(d) && WellFormed(d) && key in d.vals
    ensures SetAttr(d, key, d.vals[key]) == if d.kind == Restricted then Err(AttributeError(CantSet)) else Ok(d)
  {
    if d.kind != Restricted {
      StoredKept(d.kind, d.vals[key]);
      assert d.vals[key := d.vals[key]] == d.vals;
    }
  }

  // ---------------------------------------------------------------------
  // Well-formedness: every write path keeps the homogeneity invariant

  /** Item assignment keeps a dict well formed: the stored value is coerced
      into the dict's class. */
  lemma SetItemWellFormed(d: Value, key: string, v: Value)
    requires d.Dict? && WellFormed(d) && WellFormed(v)
    requires SetItem(d, key, v).Ok?
    ensures WellFormed(SetItem(d, key, v).value)
  {
    if d.kind == Plain {
      HomogeneousPlain(v);
    } else {
      CoerceHomogeneous(d.kind, v);
    }
  }

  /** Deleting a key keeps a dict well formed. */
  lemma RemoveWellFormed(d: Value, key: string)
    requires d.Dict? && WellFormed(d)
    ensures WellFormed(Remove(d, key))
  {
    var r := Remove(d, key);
    forall i | 0 <= i < |r.keys| ensures r.keys[i] in r.vals {
      assert r.keys[i] in r.keys;
    }
  }

  /** Storing well-formed pairs keeps a dict well formed. */
  lemma {:induction false} FillWellFormed(d: Value, pairs: seq<(string, Value)>)
    requires d.Dict? && WellFormed(d)
    requires forall i :: 0 <= i < |pairs| ==> WellFormed(pairs[i].1)
    requires Fill(d, pairs).Ok?
    ensures WellFormed(Fill(d, pairs).value)
    decreases pairs
  {
    if pairs != [] {
      SetItemWellFormed(d, pairs[0].0, pairs[0].1);
      var d1 := SetItem(d, pairs[0].0, pairs[0].1).value;
      forall i | 0 <= i < |pairs[1..]| ensures WellFormed(pairs[1..][i].1) {
        assert pairs[1..][i] == pairs[i + 1];
      }
      FillWellFormed(d1, pairs[1..]);
    }
  }

  /** Building AttrDict or LazyAttrDict from pairs always succeeds and
      holds, in order of first occurrence, each name with the coerced value
      of its last pair. */
  lemma ConstructMerges(t: Variant, pairs: seq<(string, Value)>)
    requires t != Restricted
    ensures Storable(t, pairs)
    ensures Construct(t, pairs) == Ok(Dict(t, NewKeys(Names(pairs), {}), StoredMap(t, pairs)))
  {
    StorableAll(t, pairs);
    var e := Dict(t, [], map[]);
    FillMerges(e, pairs);
    MergedIntoEmpty(t, pairs);
  }

  /** Every value can be stored in AttrDict and LazyAttrDict. */
  lemma StorableAll(t: Variant, pairs: seq<(string, Value)>)
    requires t != Restricted
    ensures Storable(t, pairs)
  {
    forall i | 0 <= i < |pairs| ensures Stored(t, pairs[i].1).Ok? {
    }
  }

  /** Merging into an empty dict gives the new keys and the stored values
      alone. */
  lemma MergedIntoEmpty(t: Variant, pairs: seq<(string, Value)>)
    requires Storable(t, pairs)
    ensures Merged(Dict(t, [], map[]), pairs) == Dict(t, NewKeys(Names(pairs), {}), StoredMap(t, pairs))
  {
    var e := Dict(t, [], map[]);
    var ks, m := NewKeys(Names(pairs), {}), StoredMap(t, pairs);
    assert e.vals.Keys == {};
    assert e.keys + ks == ks;
    assert e.vals + m == m;
  }

  /** Building a RestrictedAttrDict succeeds only when there is nothing to
      store; every failure of a constructor is `AttributeError("can't set
      attribute")`. */
  lemma ConstructFails(t: Variant, pairs: seq<(string, Value)>)
    ensures t == Restricted ==> (Construct(t, pairs).Ok? <==> pairs == [])
    ensures Construct(t, pairs).Err? ==> Construct(t, pairs).error == AttributeError(CantSet)
  {
    var e := Dict(t, [], map[]);
    FillFails(e, pairs);
    if Storable(t, pairs) && pairs != [] {
      FillMerges(e, pairs);
      assert Names(pairs)[0] in NewKeys(Names(pairs), {});
    }
  }

  /** A dict built from well-formed pairs is well formed. */
  lemma ConstructWellFormed(t: Variant, pairs: seq<(string, Value)>)
    requires forall i :: 0 <= i < |pairs| ==> WellFormed(pairs[i].1)
    requires Construct(t, pairs).Ok?
    ensures WellFormed(Construct(t, pairs).value) && Construct(t, pairs).value.kind == t
  {
    FillWellFormed(Dict(t, [], map[]), pairs);
  }

  /** Coercing a foreign dict is building the container's class from its
      items: the shortcut in `Coerce` agrees with `t(value)`. */
  lemma CoerceIsConstruct(t: Variant, v: Value)
    requires v.Dict? && KeysMatch(v.keys, v.vals) && !IsA(v.kind, t)
    ensures Coerce(t, v) == Construct(t, Items(v.keys, v.vals))
  {
    var ps := Items(v.keys, v.vals);
    if t != Restricted {
      RebuildIsConstruct(t, v);
    } else {
      ConstructFails(t, ps);
      if v.keys == [] {
        assert ps == [];
      }
    }
  }

  /** The keys a dict's items bring into an empty dict are its keys, in
      order. */
  lemma NewKeysOfItems(keys: seq<string>, vals: map<string, Value>)
    requires KeysMatch(keys, vals)
    ensures NewKeys(Names(Items(keys, vals)), {}) == keys
  {
    NamesOfItems(keys, vals);
    NewKeysFresh(keys, {});
  }

  /** A foreign dict's items stored in AttrDict or LazyAttrDict are the
      values coercion gives. */
  lemma StoredMapOfForeign(t: Variant, v: Value)
    requires t != Restricted && v.Dict? && KeysMatch(v.keys, v.vals) && !IsA(v.kind, t)
    ensures Storable(t, Items(v.keys, v.vals))
    ensures StoredMap(t, Items(v.keys, v.vals)) == Coerce(t, v).value.vals
  {
    StoredMapOfItems(t, v.keys, v.vals);
    CoerceForeignDict(t, v.kind, v.keys, v.vals);
    var m1 := StoredMap(t, Items(v.keys, v.vals));
    var m2 := Coerce(t, v).value.vals;
    assert m1.Keys == m2.Keys;
    forall key | key in m1 ensures m1[key] == m2[key] {
      assert Stored(t, v.vals[key]) == Coerce(t, v.vals[key]);
    }
    assert m1 == m2;
  }

  /** AttrDict or LazyAttrDict built from a foreign dict's items is what
      coercion gives. */
  lemma RebuildIsConstruct(t: Variant, v: Value)
    requires t != Restricted && v.Dict? && KeysMatch(v.keys, v.vals) && !IsA(v.kind, t)
    ensures Construct(t, Items(v.keys, v.vals)) == Coerce(t, v)
  {
    ConstructMerges(t, Items(v.keys, v.vals));
    NewKeysOfItems(v.keys, v.vals);
    StoredMapOfForeign(t, v);
    CoerceForeignDict(t, v.kind, v.keys, v.vals);
  }

  /** Storing a well-formed dict's items into an empty dict of its class
      gives the dict back. */
  lemma RefillItems(d: Value)
    requires d.Dict? && WellFormed(d)
    ensures Fill(Dict(d.kind, [], map[]), Items(d.keys, d.vals)) == Ok(d)
  {
    var e := Dict(d.kind, [], map[]);
    var ps := Items(d.keys, d.vals);
    assert Fill(e, ps) == Ok(Dict(d.kind, e.keys + NewKeys(d.keys, e.vals.Keys), e.vals + d.vals)) by {
      FillWithItems(e, d);
    }
    assert NewKeys(d.keys, e.vals.Keys) == d.keys by {
      assert e.vals.Keys == {};
      NewKeysFresh(d.keys, {});
    }
    assert e.keys + d.keys == d.keys;
    assert e.vals + d.vals == d.vals;
  }

  /** `copy()` yields the same class with the same keys in the same order
      and the same values, except that copying a non-empty
      RestrictedAttrDict raises. */
  lemma CopyKeepsItems(d: Value)
    requires IsFamily(d) && WellFormed(d)
    ensures Copy(d) == if d.kind == Restricted && d.keys != [] then Err(AttributeError(CantSet)) else Ok(d)
  {
    RefillItems(d);
  }

  /** `update(pairs)`: the pairs are first built into a dict `o` of the
      same class (so a RestrictedAttrDict can only be updated with
      nothing); then keys already present keep their place and take `o`'s
      value, keys new to `d` are appended in `o`'s order, and the other
      keys are untouched. */
  lemma UpdateMerges(d: Value, pairs: seq<(string, Value)>)
    requires IsFamily(d) && WellFormed(d)
    requires forall i :: 0 <= i < |pairs| ==> WellFormed(pairs[i].1)
    ensures Construct(d.kind, pairs).Err? ==> Update(d, pairs) == Err(Construct(d.kind, pairs).error)
    ensures Construct(d.kind, pairs).Ok? ==>
      var o := Construct(d.kind, pairs).value;
      && Update(d, pairs) == Ok(Dict(d.kind, d.keys + NewKeys(o.keys, d.vals.Keys), d.vals + o.vals))
      && WellFormed(Update(d, pairs).value)
  {
    if Construct(d.kind, pairs).Ok? {
      ConstructWellFormed(d.kind, pairs);
      var o := Construct(d.kind, pairs).value;
      FillWithItems(d, o);
      ItemsWellFormed(o);
      FillWellFormed(d, Items(o.keys, o.vals));
    }
  }

  // ---------------------------------------------------------------------
  // Item and attribute access

  /** After `d[key] = v`, reading `key` gives the stored (coerced) value;
      every other key reads as before; a new key goes last and an existing
      one keeps its place. The assignment fails exactly when the value
      cannot be coerced. */
  lemma SetThenGet(d: Value, key: string, v: Value)
    requires d.Dict?
    ensures SetItem(d, key, v).Err? <==> Stored(d.kind, v).Err?
    ensures SetItem(d, key, v).Ok? ==>
      var r := SetItem(d, key, v).value;
      && GetItem(r, key) == Stored(d.kind, v)
      && (forall k :: k != key ==> GetItem(r, k) == GetItem(d, k))
      && r.keys == if key in d.vals then d.keys else d.keys + [key]
  {
  }

  /** After `del d[key]` succeeds the key is gone, the other keys keep their
      values and order; it fails, with `KeyError(key)`, exactly when the
      key is missing from a strict dict. */
  lemma DelThenGet(d: Value, key: string)
    requires d.Dict? && KeysMatch(d.keys, d.vals)
    ensures DelItem(d, key).Err? <==> key !in d.vals && !Lenient(d.kind)
    ensures DelItem(d, key).Err? ==> DelItem(d, key).error == KeyError(key)
    ensures DelItem(d, key).Ok? ==>
      var r := DelItem(d, key).value;
      && key !in r.vals
      && (forall k :: k != key ==> GetItem(r, k) == GetItem(d, k))
      && r.keys == Without(d.keys, key)
  {
  }

  /** Attribute syntax is item syntax on the same key: reading or deleting
      by attribute succeeds exactly when the item operation does, with the
      same result, and a `KeyError(key)` becomes an `AttributeError` with
      the same message; assignment by attribute is item assignment except
      on RestrictedAttrDict. */
  lemma AttributeIsItem(d: Value, name: string, v: Value)
    requires IsFamily(d)
    ensures GetAttr(d, name).Ok? <==> GetItem(d, name).Ok?
    ensures GetItem(d, name).Ok? ==> GetAttr(d, name) == GetItem(d, name)
    ensures GetItem(d, name).Err? ==>
      GetItem(d, name) == Err(KeyError(name)) && GetAttr(d, name) == Err(AttributeError(name))
    ensures d.kind != Restricted ==> SetAttr(d, name, v) == SetItem(d, name, v)
    ensures d.kind != Restricted ==> (DelAttr(d, name).Ok? <==> DelItem(d, name).Ok?)
    ensures d.kind != Restricted && DelItem(d, name).Ok? ==> DelAttr(d, name) == DelItem(d, name)
    ensures d.kind != Restricted && DelItem(d, name).Err? ==>
      DelItem(d, name) == Err(KeyError(name)) && DelAttr(d, name) == Err(AttributeError(name))
  {
  }

  /** On AttrDict a missing key raises `KeyError` through item syntax and
      `AttributeError` with the same message through attribute syntax. */
  lemma StrictMissing(d: Value, key: string)
    requires d.Dict? && d.kind == Attr && key !in d.vals
    ensures GetItem(d, key) == Err(KeyError(key)) && DelItem(d, key) == Err(KeyError(key))
    ensures GetAttr(d, key) == Err(AttributeError(key)) && DelAttr(d, key) == Err(AttributeError(key))
    ensures Message(GetAttr(d, key).error) == Message(GetItem(d, key).error)
  {
  }

  /** On LazyAttrDict and RestrictedAttrDict a missing key reads as `None`
      by item and by attribute, without being inserted, and deleting it by
      item (and, on LazyAttrDict, by attribute) leaves the dict unchanged. */
  lemma LenientMissing(d: Value, key: string)
    requires d.Dict? && Lenient(d.kind) && key !in d.vals
    ensures GetItem(d, key) == Ok(None) && GetAttr(d, key) == Ok(None)
    ensures DelItem(d, key) == Ok(d)
    ensures d.kind == Lazy ==> DelAttr(d, key) == Ok(d)
  {
  }

  /** RestrictedAttrDict: attribute assignment and deletion always raise
      and change nothing; item assignment of a value that coerces, item
      deletion and `pop` of a present key still work. Assigning a
      non-empty plain dict raises, assigning `{}` stores an empty
      RestrictedAttrDict. */
  lemma RestrictedWrites(d: Value, key: string, v: Value)
    requires d.Dict? && d.kind == Restricted
    ensures SetAttr(d, key, v) == Err(AttributeError(CantSet))
    ensures DelAttr(d, key) == Err(AttributeError(CantDelete))
    ensures SetItem(d, key, v).Ok? <==> !RebuildsNonEmpty(Restricted, v)
    ensures DelItem(d, key).Ok?
    ensures key in d.vals ==> Pop(d, key).Ok?
    ensures v.Dict? && v.kind == Plain ==> (SetItem(d, key, v).Ok? <==> v.keys == [])
    ensures SetItem(d, key, EmptyPlain) == Ok(Store(d, key, Dict(Restricted, [], map[])))
  {
    CoerceRestrictedFails(v);
  }

  /** `get(key)` reads like item syntax on a LazyAttrDict, on every kind:
      the stored value, or `None` without raising. */
  lemma GetIsLenientRead(d: Value, key: string)
    requires d.Dict?
    ensures Get(d, key) == if GetItem(d, key).Ok? then GetItem(d, key).value else None
    ensures key !in d.vals ==> Get(d, key) == None
  {
  }

  /** Taking the key at position `i` out of a key order without repeats
      leaves the keys before it and the keys after it, each in order. */
  lemma {:induction false} WithoutAt(keys: seq<string>, i: int)
    requires Distinct(keys) && 0 <= i < |keys|
    ensures Without(keys, keys[i]) == keys[..i] + keys[i + 1..]
    decreases i
  {
    DistinctRest(keys);
    if i == 0 {
      WithoutFirst(keys);
    } else {
      var rest := keys[1..];
      assert rest[i - 1] == keys[i];
      WithoutAt(rest, i - 1);
      WithoutLater(keys, i);
    }
  }

  /** A key order without repeats, without its first key, is its tail. */
  lemma WithoutFirst(keys: seq<string>)
    requires keys != [] && keys[0] !in keys[1..]
    ensures Without(keys, keys[0]) == keys[1..]
  {
  }

  /** Taking out a key past the first keeps the first in front. */
  lemma WithoutLater(keys: seq<string>, i: int)
    requires 0 < i < |keys| && keys[0] != keys[i]
    requires Without(keys[1..], keys[i]) == keys[1..][..i - 1] + keys[1..][i..]
    ensures Without(keys, keys[i]) == keys[..i] + keys[i + 1..]
  {
    WithoutUnfold(keys, keys[i]);
    SplitAround(keys, i);
  }

  /** Taking out a key other than the first keeps the first in front. */
  lemma WithoutUnfold(keys: seq<string>, key: string)
    requires keys != [] && keys[0] != key
    ensures Without(keys, key) == [keys[0]] + Without(keys[1..], key)
  {
  }

  /** The keys around position `i`, seen from the tail. */
  lemma SplitAround(keys: seq<string>, i: int)
    requires 0 < i < |keys|
    ensures [keys[0]] + (keys[1..][..i - 1] + keys[1..][i..]) == keys[..i] + keys[i + 1..]
  {
    assert keys[..i] == [keys[0]] + keys[1..][..i - 1];
    assert keys[i + 1..] == keys[1..][i..];
  }

  /** A key order without repeats stays so without its first key, which
      does not occur again. */
  lemma DistinctRest(keys: seq<string>)
    requires Distinct(keys) && keys != []
    ensures Distinct(keys[1..]) && keys[0] !in keys[1..]
  {
  }

  /** `pop(key)` returns the stored value and removes the key, on every
      kind; a missing key raises `KeyError(key)`. */
  lemma PopRemoves(d: Value, key: string)
    requires d.Dict? && KeysMatch(d.keys, d.vals)
    ensures Pop(d, key).Err? <==> key !in d.vals
    ensures Pop(d, key).Err? ==> Pop(d, key).error == KeyError(key)
    ensures Pop(d, key).Ok? ==>
      var (x, r) := Pop(d, key).value;
      && GetItem(d, key) == Ok(x)
      && key !in r.vals
      && (forall k :: k != key ==> GetItem(r, k) == GetItem(d, k))
      && r.keys == Without(d.keys, key) && r.vals == d.vals - {key}
  {
  }

  /** `setdefault(key, default)`: on a present key it returns the existing
      value and leaves the dict unchanged; on an absent key it appends the
      key with the coerced default and returns that value. Coercing the
      default comes first, so it can raise even for a present key. */
  lemma SetDefaultSpec(d: Value, key: string, default: Value)
    requires IsFamily(d)
    ensures SetDefault(d, key, default).Err? <==> Coerce(d.kind, default).Err?
    ensures SetDefault(d, key, default).Ok? && key in d.vals ==>
      SetDefault(d, key, default) == Ok((d.vals[key], d))
    ensures SetDefault(d, key, default).Ok? && key !in d.vals ==>
      var x := Coerce(d.kind, default).value;
      SetDefault(d, key, default) == Ok((x, Dict(d.kind, d.keys + [key], d.vals[key := x])))
  {
    if Coerce(d.kind, default).Ok? {
      CoerceIdempotent(d.kind, default);
    }
  }

  /** `setdefault` keeps a well-formed dict well formed. */
  lemma SetDefaultWellFormed(d: Value, key: string, default: Value)
    requires IsFamily(d) && WellFormed(d) && WellFormed(default)
    requires SetDefault(d, key, default).Ok?
    ensures WellFormed(SetDefault(d, key, default).value.1)
  {
    CoerceHomogeneous(d.kind, default);
    var x := Coerce(d.kind, default).value;
    if key !in d.vals {
      SetItemWellFormed(d, key, x);
    }
  }

  /** `from_json`: RestrictedAttrDict always raises `AttributeError`; a
      parsed value that is not an object raises `TypeError`; otherwise the
      object is built into the class as the constructor would. */
  lemma FromJsonSpec(t: Variant, parsed: Value)
    requires WellFormed(parsed)
    ensures t == Restricted ==> FromJson(t, parsed) == Err(AttributeError(CantSet))
    ensures t != Restricted && !parsed.Dict? ==> FromJson(t, parsed) == Err(TypeError(NotADictionary))
    ensures t != Restricted && parsed.Dict? ==> FromJson(t, parsed).Ok? && WellFormed(FromJson(t, parsed).value)
    ensures t != Restricted && parsed.Dict? && parsed.kind == Plain ==> FromJson(t, parsed) == Coerce(t, parsed)
  {
    if t != Restricted && parsed.Dict? {
      var ps := Items(parsed.keys, parsed.vals);
      ItemsWellFormed(parsed);
      ConstructMerges(t, ps);
      ConstructWellFormed(t, ps);
      if parsed.kind == Plain {
        CoerceIsConstruct(t, parsed);
      }
    }
  }
}

=== FILE: values.dfy ===
/** The values an attribute dictionary stores, the dictionary classes as
    kinds, and the exceptions the operations raise. */
module Values {

  /** The dict classes the core deals with. `Plain` is the builtin `dict`;
      the other three are `AttrDict`, `LazyAttrDict` and
      `RestrictedAttrDict`. */
  datatype Kind = Plain | Attr | Lazy | Restricted

  /** The kinds a container of the family can have. */
  type Variant = k: Kind | k != Plain witness Attr

  /** `isinstance(x, t)` for a dict-like `x` of kind `k`: the subclass chain
      is RestrictedAttrDict < LazyAttrDict < AttrDict < dict. */
  predicate IsA(k: Kind, t: Kind) {
    Depth(t) <= Depth(k)
  }

  /** Position of a kind in the subclass chain, `dict` at the root. */
  function Depth(k: Kind): nat {
    match k
    case Plain => 0
    case Attr => 1
    case Lazy => 2
    case Restricted => 3
  }

  /** The variants whose `__getitem__`/`__delitem__` tolerate missing keys
      (LazyAttrDict and its subclass RestrictedAttrDict). */
  predicate Lenient(k: Kind) {
    IsA(k, Lazy)
  }

  /** The container types that coercion rebuilds element by element. */
  datatype Collection = List | Tuple | Set

  /** A Python value as far as the core distinguishes values: `None`,
      numbers and strings are stored unchanged; lists, tuples and sets keep
      their elements in iteration order; a dict keeps its keys in insertion
      order (`keys`) and its values by key (`vals`). */
  datatype Value =
    | None
    | Int(i: int)
    | Str(s: string)
    | Coll(coll: Collection, elems: seq<Value>)
    | Dict(kind: Kind, keys: seq<string>, vals: map<string, Value>)

  /** The empty dict display `{}`. */
  const EmptyPlain: Value := Dict(Plain, [], map[])

  /** No name occurs twice. */
  predicate Distinct(s: seq<string>) {
    forall i, j :: 0 <= i < j < |s| ==> s[i] != s[j]
  }

  /** The ordered key list of a dict lists each key of its map exactly once. */
  predicate KeysMatch(keys: seq<string>, vals: map<string, Value>) {
    && Distinct(keys)
    && (forall k :: k in vals ==> k in keys)
    && (forall i :: 0 <= i < |keys| ==> keys[i] in vals)
  }

  /** Every dict reachable from `v` (through dicts and collections) is an
      instance of kind `t`. */
  predicate Homogeneous(t: Kind, v: Value)
    decreases v
  {
    match v
    case Dict(k, _, vals) => IsA(k, t) && forall key :: key in vals ==> Homogeneous(t, vals[key])
    case Coll(_, s) => forall i :: 0 <= i < |s| ==> Homogeneous(t, s[i])
    case _ => true
  }

  /** A value as the attribute-dictionary classes build them: every dict in
      it has a consistent key order, and the values of every dict of the
      family are homogeneous for that dict's own kind. Coercion keeps an
      instance of the container's class as it is, assuming exactly this of
      its children. */
  predicate WellFormed(v: Value)
    decreases v
  {
    match v
    case Dict(k, keys, vals) =>
      && KeysMatch(keys, vals)
      && forall key :: key in vals ==> WellFormed(vals[key]) && Homogeneous(k, vals[key])
    case Coll(_, s) => forall i :: 0 <= i < |s| ==> WellFormed(s[i])
    case _ => true
  }

  /** Python's truth value of a dictionary key argument. */
  predicate Truthy(v: Value) {
    match v
    case None => false
    case Int(i) => i != 0
    case Str(s) => s != ""
    case Coll(_, s) => s != []
    case Dict(_, _, vals) => vals != map[]
  }

  /** Python's `==` on these values. Two dicts of the OrderedDict family
      compare their key order as well as their items; a comparison that
      involves a builtin dict ignores order. */
  predicate PyEq(a: Value, b: Value)
    decreases a
  {
    match a
    case None => b.None?
    case Int(i) => b.Int? && b.i == i
    case Str(s) => b.Str? && b.s == s
    case Coll(c, xs) =>
      && b.Coll? && b.coll == c
      && if c == Set then
           // set elements are hashable (no dicts or lists), for which
           // Python's == is structural equality
           (set x | x in xs) == (set y | y in b.elems)
         else
           && |xs| == |b.elems|
           && forall i :: 0 <= i < |xs| ==> PyEq(xs[i], b.elems[i])
    case Dict(k, keys, vals) =>
      && b.Dict?
      && vals.Keys == b.vals.Keys
      && (forall key :: key in vals ==> PyEq(vals[key], b.vals[key]))
      && (k != Plain && b.kind != Plain ==> keys == b.keys)
  }

  /** A value Python can put in a set: a scalar, or a tuple of such.
      Dicts, lists and sets are unhashable. */
  predicate Hashable(v: Value)
    decreases v
  {
    match v
    case Dict(_, _, _) => false
    case Coll(c, s) => c == Tuple && forall i :: 0 <= i < |s| ==> Hashable(s[i])
    case _ => true
  }

  /** Every set reachable from `v` holds hashable elements only, as every
      Python set does. */
  predicate SetsHashable(v: Value)
    decreases v
  {
    match v
    case Dict(_, _, vals) => forall key :: key in vals ==> SetsHashable(vals[key])
    case Coll(c, s) =>
      if c == Set then forall i :: 0 <= i < |s| ==> Hashable(s[i])
      else forall i :: 0 <= i < |s| ==> SetsHashable(s[i])
    case _ => true
  }

  /** Every value is equal to itself under Python's `==`. */
  lemma {:induction false} PyEqReflexive(v: Value)
    ensures PyEq(v, v)
    decreases v
  {
    match v
    case Coll(c, xs) =>
      forall i | 0 <= i < |xs| ensures PyEq(xs[i], xs[i]) {
        PyEqReflexive(xs[i]);
      }
    case Dict(_, _, vals) =>
      forall key | key in vals ensures PyEq(vals[key], vals[key]) {
        PyEqReflexive(vals[key]);
      }
    case _ =>
  }

  /** The exceptions the core raises. A `KeyError` carries the missing key;
      `str()` of it is the key's repr, which the model represents by the key
      text itself. */
  datatype Error =
    | KeyError(key: string)
    | AttributeError(msg: string)
    | TypeError(msg: string)

  const CantSet := "can't set attribute"
  const CantDelete := "can't delete attribute"
  const NotADictionary := "Not a dictionary"
  const NoItemAssignment := "object does not support item assignment"

  /** The message `str(error)` gives. */
  function Message(e: Error): string {
    match e
    case KeyError(k) => k
    case AttributeError(m) => m
    case TypeError(m) => m
  }

  /** The result of an operation that returns a value or raises; a method
      that returns `None` gives `Ok(None)`. */
  datatype Result<T> = Ok(value: T) | Err(error: Error)

  /** `translate_error(KeyError, AttributeError)`: a `KeyError` escaping
      the wrapped call is re-raised as an `AttributeError` with the same
      message; anything else passes through. */
  function Translate<T>(r: Result<T>): (t: Result<T>)
    ensures r.Ok? ==> t == r
    ensures r.Err? ==> t.Err? && Message(t.error) == Message(r.error)
    ensures r.Err? ==> t.error.AttributeError? == (r.error.KeyError? || r.error.AttributeError?)
    ensures r.Err? && !r.error.KeyError? ==> t == r
  {
    match r
    case Err(KeyError(k)) => Err(AttributeError(k))
    case _ => r
  }
}
